=== FILE: README.md ===
# A Dafny model of a small POSIX-style shell

The shell is one Python file, `app/main.py`. It reads PATH once at start-up and
splits it at colons. Then it loops:

1. It reads a line and strips surrounding whitespace.
2. It splits the line into tokens. The tokens are the matches of
   `'[^']*'|\S+`, each with its outer single quotes stripped.
3. It acts on the first token:
   - `exit`, `echo`, `type`, `pwd` and `cd` are builtins;
   - any other word names a program, which is searched for in the PATH
     entries and run with the remaining tokens as its arguments.

The model has five modules:

- `Wrappers` (`wrappers.dfy`) holds the `Option` type.
- `Text` (`text.dfy`) holds the Python string operations the shell relies on:
  - whitespace as `str.isspace` defines it;
  - `str.strip` with and without an argument;
  - `str.split(':')`;
  - `sep.join`.

  It also defines `str.split()` with no argument (`Fields`), which the shell
  does not call. It is the reference that the lemmas about quote-free lines
  compare the tokenizer against.
- `Tokenizer` (`tokenizer.dfy`) models `parse_input`. `NextMatch` finds the
  regular expression's next match the way `re.findall` scans, left to right
  and without overlaps. `Scan` collects all the matches. `ParseInput` strips
  quotes from each match.
- `Paths` (`paths.dfy`) holds the pieces of `os.path` the shell uses:
  - `os.path.join`;
  - an abstract file system that answers `os.path.isfile` and
    `os.path.isdir`, and knows which directories may not be entered;
  - the PATH search that `type` and program execution share.

  It also defines `Basename`, which the shell never calls. It is there only to
  state what `type` reports: the path it names ends in the command's name.
- `Shell` (`shell.dfy`) holds start-up (`Start`), one turn of the loop
  (`Step` and `Dispatch`), and the loop itself over a sequence of input lines
  (`Run`).

A turn ends in an `Effect`:

- nothing written;
- one printed line;
- a program spawned with its arguments;
- an exit with the argument given to `exit`;
- a crash.

A crash stands for an exception the source does not catch:

- an empty or blank line, because the first token of an empty list is
  indexed;
- `exit` or `type` without an argument;
- `cd ~` with HOME unset or not naming a directory;
- `cd` into a directory the shell may not enter, where `os.chdir` raises
  `PermissionError`.

These crashes are modelled as outcomes, not excluded by preconditions. The
environment, the file system and the input lines are parameters.

## Model

| member | source | states |
|---|---|---|
| `Text.Trim` | app/main.py:14 | `str.strip`: the result is a slice of the input, everything cut from either side is strippable, and neither end of the result is |
| `Text.StripsToUnique` | app/main.py:14 | at most one string is a slice with strippable surroundings and unstrippable ends, so the contract of `Trim` pins its result down |
| `Text.StripParts` | app/main.py:14 | a line is the whitespace stripped in front, the stripped line, and the whitespace stripped behind |
| `Text.SplitOn` | app/main.py:10 | `str.split(':')` gives at least one piece, and no piece holds the separator |
| `Text.JoinSplit` | app/main.py:10 | joining the pieces of a split with the separator gives the string back |
| `Text.SplitJoin` | app/main.py:10 | splitting the join of one or more separator-free pieces gives the pieces back |
| `Text.IndexOf` | app/main.py:80 | the first position of a character, or None exactly when it does not occur; nothing before that position is that character |
| `Tokenizer.RunLength` | app/main.py:80 | `\S+`: the run at the start holds no whitespace and ends at whitespace or at the end of the line |
| `Tokenizer.NextMatch` | app/main.py:80-81 | none exactly when only whitespace is left; otherwise a well-formed match preceded only by whitespace and followed by the rest; a bare run is maximal, so the rest is empty or starts with whitespace; an unclosed quote leaves no quote in the rest |
| `Tokenizer.Scan` | app/main.py:81 | `re.findall`: every match is well formed, and there are no more matches than characters, since each match takes at least one |
| `Tokenizer.ScanValid` | app/main.py:80-81 | every match list `re.findall` produces is well formed, and no quote follows an unclosed one; a quote-free line gives quote-free matches |
| `Tokenizer.TrimQuotedSpan` | app/main.py:82 | stripping quotes from `'inner'` gives `inner` |
| `Tokenizer.TrimBareRun` | app/main.py:82 | stripping quotes from a whitespace-free run leaves it whitespace-free, and unchanged when it holds no quote |
| `Tokenizer.TokenOf` | app/main.py:82 | the token is what `strip("'")` leaves of the match: a slice with only quotes cut from either side and no quote at either end; a quoted span gives what lies between its quotes; a bare run gives a whitespace-free token, itself when it holds no quote |
| `Tokenizer.TokenOfTrailingQuote` | app/main.py:80-82 | a run ending in a quote it never opened, like `abc'`, is a bare match whose token drops just that quote |
| `Tokenizer.ParseInput` | app/main.py:79-82 | one token per match, each what stripping quotes from that match leaves; no token starts or ends with a quote; quoted spans give their inner text; other matches give whitespace-free tokens |
| `Tokenizer.ScanEmptyIffBlank` | app/main.py:80-81 | no match exactly when the line is empty or all whitespace |
| `Tokenizer.ParseInputEmptyIffBlank` | app/main.py:79-82 | no token exactly when the line is empty or all whitespace |
| `Tokenizer.ScanSkipsLeadingSpace` | app/main.py:80-81 | leading whitespace does not change the matches |
| `Tokenizer.ScanIgnoresTrailingSpace` | app/main.py:80-81 | trailing whitespace does not change the matches |
| `Tokenizer.ParseInputIgnoresStrip` | app/main.py:79-82 | tokenizing the stripped line gives the same tokens as tokenizing the raw line |
| `Tokenizer.UnterminatedQuoteFallsBack` | app/main.py:79-82 | a quote with no closing quote anywhere after it, preceded by quote-free words, is matched by `\S+`: the words tokenize as by `str.split()`, the run holding the quote gives the rest of that run without the quote, and the words after it follow |
| `Tokenizer.ParseInputAppend` | app/main.py:79-82 | when the matches of two joined lines are those of each line in turn, so are the tokens |
| `Tokenizer.TrimUnterminated` | app/main.py:82 | stripping quotes from a run whose only quote is its first character drops just that quote |
| `Tokenizer.ScanQuoteFreeIsFields` | app/main.py:80-81 | on a line without quotes the matches are exactly the fields of `str.split()` |
| `Tokenizer.ParseInputQuoteFree` | app/main.py:79-82 | on a line without quotes the tokens are exactly the fields of `str.split()` |
| `Tokenizer.ParseInputOfWords` | app/main.py:79-82 | a line of quote-free words without whitespace, separated by single spaces, tokenizes into exactly those words |
| `Tokenizer.ParseInputQuotedArg` | app/main.py:79-82 | a quote-free word, a space and a quoted span give two tokens: the word, and the text between the quotes with its whitespace kept |
| `Tokenizer.ScanUnscan` | app/main.py:80-81 | a valid match list joined by single spaces scans back to the same list |
| `Tokenizer.ScanIdempotent` | app/main.py:80-81 | scanning the space-joined matches of any line gives the same matches again |
| `Paths.PathJoinShape` | app/main.py:35 | `os.path.join(a, b)` ends with `b`, starts with `a` when `b` is relative, and is absolute exactly when `a` or `b` is |
| `Paths.JoinBasename` | app/main.py:35-38 | the path `type` reports for a slash-free name has that name as its basename |
| `Paths.FirstTrue` | app/main.py:32-39 | the loop's first hit: a true entry with only false ones before it, or None when all are false |
| `Paths.Search` | app/main.py:32-41 | a path found names a file, and nothing is found exactly when no entry supplies the name |
| `Paths.SearchFinds` | app/main.py:32-39 | the first entry that supplies the name decides the path found |
| `Paths.SearchFound` | app/main.py:32-39 | a path found comes from an entry that supplies the name, with no earlier entry supplying it |
| `Paths.SearchCons` | app/main.py:32-39 | a first entry that supplies the name wins, and otherwise the remaining entries decide |
| `Paths.NonEmpty` | app/main.py:32-34 | the entries the loop does not skip: exactly the non-empty PATH entries are kept, and none kept is empty |
| `Paths.NonEmptyAppend` | app/main.py:32-34 | filtering keeps order: the non-empty entries of two lists joined are those of the first, then those of the second |
| `Paths.SearchSkipsEmpty` | app/main.py:33-34 | dropping the empty PATH entries, which keeps exactly the non-empty ones, does not change what the search finds |
| `Paths.SearchAppend` | app/main.py:32-39 | on two lists of entries searched in order, the first list wins and the second counts only when the first finds nothing |
| `Shell.Classify` | app/main.py:8 | a word names a builtin exactly when it is on the builtin list, and the builtin it names is named by that word |
| `Shell.ClassifyName` | app/main.py:8 | every builtin's name is on the list and classifies back to that builtin |
| `Shell.Start` | app/main.py:9-10 | no session when PATH is unset; otherwise the colon-free entries, at least one, that joined with colons give PATH back |
| `Shell.StartReadsEntries` | app/main.py:9-10 | a PATH built from colon-free entries is read back as exactly those entries |
| `Shell.TypeReport` | app/main.py:26-41 | a builtin is reported as a shell builtin whatever PATH holds; a name no entry supplies is reported as not found |
| `Shell.TypeReportFindsFirst` | app/main.py:32-39 | `type` reports the path through the first PATH entry that supplies the name |
| `Shell.TypeReportNamesCommand` | app/main.py:35-38 | a reported path for a slash-free command ends in that command's name |
| `Shell.RunExternal` | app/main.py:53-72 | a spawned program is a file run with the given arguments; otherwise the whole stripped line is reported as not found, which is always so when no entry supplies the command |
| `Shell.RunExternalFindsFirst` | app/main.py:54-60 | the program run is the one through the first PATH entry that supplies the command |
| `Shell.TypeAgreesWithRun` | app/main.py:26-72 | for a command that is not a builtin, `type` reports `p` exactly when running the command runs `p` |
| `Shell.ChangeDirectory` | app/main.py:44-52 | only a silent `cd` moves the working directory, into a directory that may be entered: `~` lands on HOME and any other target on that target resolved against the working directory; a target other than `~` that is not a directory is reported with the exact message; the shell crashes exactly when HOME is unset or no directory for `~`, or when the directory may not be entered |
| `Shell.ChangeDirectoryAbsolute` | app/main.py:49-52 | `cd` to an absolute directory that may be entered lands there wherever the shell stands, and doing it twice is doing it once |
| `Shell.Dispatch` | app/main.py:17-72 | crash for want of a command exactly when there is no token, and for want of an argument exactly when `exit` or `type` stands alone; PATH and HOME never change; only `cd` changes the working directory or stays silent; exit carries the first argument; only non-builtins spawn, with the remaining tokens as arguments |
| `Shell.DispatchEcho` | app/main.py:24-25 | `echo` prints the remaining tokens joined by single spaces, for every line, and leaves the session as it was |
| `Shell.DispatchCd` | app/main.py:44-52 | the `cd` target is the remaining tokens joined with nothing between them, as `''.join(args)` builds it |
| `Shell.DispatchExit` | app/main.py:22-23 | `exit` with an argument ends the shell with that argument and leaves the session as it was |
| `Shell.DispatchType` | app/main.py:26-41 | `type` with an argument prints the report on that argument and leaves the session as it was |
| `Shell.DispatchPwd` | app/main.py:42-43 | a first token `pwd` prints the working directory, whatever else follows, and leaves the session as it was |
| `Shell.DispatchExternal` | app/main.py:53-72 | a first token that is no builtin runs that command with the remaining tokens as arguments and leaves the session as it was |
| `Shell.StepTokens` | app/main.py:14-17 | the tokens a turn acts on are those of the raw line |
| `Shell.Step` | app/main.py:14-72 | one turn on the raw line: PATH and HOME never change; the working directory changes only when the first token of the raw line is `cd`; an exit carries the raw line's second token; a spawn happens only for a non-builtin first token, with the raw line's remaining tokens as its arguments |
| `Shell.StepBlankCrashes` | app/main.py:14-18 | a turn crashes for want of a command exactly when the line is empty or all whitespace |
| `Shell.EchoNormalisesSpacing` | app/main.py:24-25 | `echo` on a quote-free line prints its remaining words joined by single spaces |
| `Shell.EchoRoundTrip` | app/main.py:24-25 | what `echo` prints splits at spaces back into its arguments when none holds a space |
| `Shell.EchoKeepsQuotedText` | app/main.py:17-25 | `echo` with one quoted argument prints the text between the quotes as it stands and leaves the session as it was |
| `Shell.StepPwd` | app/main.py:14-43 | a line whose first token is `pwd` prints the working directory and changes nothing, whatever else the line holds |
| `Shell.StepCommandNotFound` | app/main.py:14-72 | a line whose command is no builtin and that no PATH entry supplies prints the stripped line followed by `: command not found` |
| `Shell.StepCdAbsolute` | app/main.py:44-52 | `cd` with a whitespace- and quote-free absolute path of a directory that may be entered moves there silently and changes nothing else |
| `Shell.CdThenPwd` | app/main.py:11-52 | `cd` with a whitespace- and quote-free absolute path of a directory that may be entered, followed by `pwd`, prints that directory, and neither line ends the shell |
| `Shell.Run` | app/main.py:11-14 | one effect per line read, and no line is read after an exit or a crash |
| `Shell.RunAppend` | app/main.py:11-14 | two batches of lines run as the first batch, then, unless it ended the shell, the second from the session the first left |
| `Shell.AfterKeepsSettings` | app/main.py:9-52 | across a run, PATH and HOME never change, and the working directory is the starting one or a directory that may be entered |

## Left out

- Prompt and output: writing `$ ` and the newline `print` adds are not modelled. The input lines are a parameter.
- End of input: `input()` raising at end of input is not modelled. A run simply stops when the lines run out.
- Spawned programs: their execution and the relaying of their output and error streams (lines 61-69) are left out, because they are external processes. The model stops at the `Spawn` effect.
- The file system: it is fixed for a run. A spawned program that creates or removes files is not reflected in later turns.
- Shell.Dispatch: for `exit` it keeps the raw argument. `int()` parsing, with its `ValueError` for non-numeric text, and the process exit itself (lines 75-76) are left out.
- Paths: the file system is three sets of absolute path spellings: regular files, directories, and directories the shell may not enter. Path resolution by the kernel is folded into those sets: `.`, `..`, repeated slashes and symbolic links. Permissions are modelled only for entering a directory with `cd`.
- Shell.RunExternal: a file found on PATH that cannot be executed makes `subprocess.run` raise, which ends the shell. The model stops at the `Spawn` effect and does not model execute permission.
- `cd`: the new working directory is the joined spelling. `os.getcwd()` would return the kernel's canonical spelling, so `pwd` after `cd ..` shows the joined spelling here.
- Environment: HOME and PATH are read once, at start-up. The source reads HOME again on each `cd ~`, but nothing in the shell changes its environment, so the value is the same.
- Whitespace: it follows `str.isspace`, which is what `\s`, `str.split()` and `str.strip()` use. Unicode normalisation and encodings are out of scope.
- Features the shell does not have: `app/main.py` has no double quotes, backslash escapes, output redirection or shell options, so the model has none either.

=== FILE: paths.dfy ===
/**
 Paths as the shell uses them: `os.path.join` of a directory and a name, an
 abstract file system answering `os.path.isfile` and `os.path.isdir`, and the
 search of the PATH directories for a command.
 */
module Paths {
  import opened Wrappers
  import opened Text

  const Slash: char := '/'

  /** `os.path.isabs` on POSIX: the path starts with a slash. */
  predicate IsAbsolute(p: string) {
    |p| > 0 && p[0] == Slash
  }

  /** `os.path.join(a, b)` on POSIX: an absolute `b` replaces `a`; otherwise `b`
      is appended to `a`, with a slash in between unless `a` is empty or
      already ends with one. */
  function PathJoin(a: string, b: string): string {
    if IsAbsolute(b) then b
    else if |a| == 0 || a[|a| - 1] == Slash then a + b
    else a + [Slash] + b
  }

  /** The joined path always ends with `b`, starts with `a` when `b` is
      relative, and is absolute exactly when one of the two is. */
  lemma PathJoinShape(a: string, b: string)
    ensures var r := PathJoin(a, b); |b| <= |r| && r[|r| - |b|..] == b
    ensures var r := PathJoin(a, b); !IsAbsolute(b) ==> |a| <= |r| && r[..|a|] == a
    ensures IsAbsolute(PathJoin(a, b)) <==> IsAbsolute(a) || IsAbsolute(b)
  {
    var r := PathJoin(a, b);
    if !IsAbsolute(b) && |a| > 0 && a[|a| - 1] != Slash {
      assert r == a + ([Slash] + b);
    }
  }

  /** `os.path.basename`: what follows the last slash. It holds no slash, ends
      `p`, and is preceded by a slash whenever it is not all of `p`. */
  function Basename(p: string): (r: string)
    ensures Avoids(r, Slash)
    ensures |r| <= |p| && r == p[|p| - |r|..]
    ensures |r| < |p| ==> p[|p| - |r| - 1] == Slash
    decreases |p|
  {
    if |p| == 0 || p[|p| - 1] == Slash then ""
    else
      var r := Basename(p[..|p| - 1]);
      BasenameStep(p, r);
      r + [p[|p| - 1]]
  }

  /** The basename of all but the last character, extended by a last
      character that is not a slash, is the basename of the whole path. */
  lemma BasenameStep(p: string, r: string)
    requires |p| > 0 && p[|p| - 1] != Slash
    requires Avoids(r, Slash)
    requires |r| <= |p| - 1 && r == p[..|p| - 1][|p| - 1 - |r|..]
    requires |r| < |p| - 1 ==> p[..|p| - 1][|p| - 1 - |r| - 1] == Slash
    ensures Avoids(r + [p[|p| - 1]], Slash)
    ensures r + [p[|p| - 1]] == p[|p| - |r| - 1..]
    ensures |r| + 1 < |p| ==> p[|p| - |r| - 2] == Slash
  {
    var init := p[..|p| - 1];
    assert init[|init| - |r|..] + [p[|p| - 1]] == p[|p| - |r| - 1..];
  }

  /** A name without slashes put after a slash is its own basename. */
  lemma {:induction false} BasenameAfterSlash(x: string, name: string)
    requires |x| > 0 && x[|x| - 1] == Slash
    requires Avoids(name, Slash)
    ensures Basename(x + name) == name
    decreases |name|
  {
    if |name| == 0 {
      assert x + name == x;
    } else {
      var init := name[..|name| - 1];
      assert (x + name)[..|x + name| - 1] == x + init;
      BasenameAfterSlash(x, init);
      assert init + [name[|name| - 1]] == name;
    }
  }

  /** Joining a directory and a command name without slashes: the name is
      the basename of the result, so `type` reports a path to the very name
      it was asked about. */
  lemma JoinBasename(dir: string, name: string)
    requires Avoids(name, Slash)
    ensures Basename(PathJoin(dir, name)) == name
  {
    if |dir| == 0 {
    } else if dir[|dir| - 1] == Slash {
      BasenameAfterSlash(dir, name);
    } else {
      assert dir + [Slash] + name == (dir + [Slash]) + name;
      BasenameAfterSlash(dir + [Slash], name);
    }
  }

  /** What the operating system answers about paths. `files` and `dirs` hold
      every spelling of an absolute path that names a regular file or a
      directory; `locked` holds the spellings of directories the shell may not
      enter, for want of search permission. The kernel's resolution of `.`,
      `..`, repeated slashes and symbolic links is folded into these sets. */
  datatype FileSystem = FileSystem(files: set<string>, dirs: set<string>, locked: set<string>)

  /** The absolute spelling of `p` when the working directory is `cwd`. */
  function Resolve(cwd: string, p: string): string {
    PathJoin(cwd, p)
  }

  /** `os.path.isfile(p)`: false for the empty path, otherwise whether the
      path, taken relative to `cwd`, names a regular file. */
  predicate IsFile(fs: FileSystem, cwd: string, p: string) {
    p != "" && Resolve(cwd, p) in fs.files
  }

  /** `os.path.isdir(p)`, in the same way. */
  predicate IsDir(fs: FileSystem, cwd: string, p: string) {
    p != "" && Resolve(cwd, p) in fs.dirs
  }

  /** Whether `os.chdir(p)` succeeds: `p` names a directory the shell may enter. */
  predicate CanEnter(fs: FileSystem, cwd: string, p: string) {
    IsDir(fs, cwd, p) && Resolve(cwd, p) !in fs.locked
  }

  /** A PATH entry that supplies `name`: empty entries are skipped, any other
      supplies it when joining the two gives a file. */
  predicate Provides(fs: FileSystem, cwd: string, dir: string, name: string) {
    dir != "" && IsFile(fs, cwd, PathJoin(dir, name))
  }

  /** For each PATH entry, whether it supplies `name`. */
  function Hits(fs: FileSystem, cwd: string, dirs: seq<string>, name: string): seq<bool> {
    seq(|dirs|, i requires 0 <= i < |dirs| => Provides(fs, cwd, dirs[i], name))
  }

  /** The position of the first true entry: it is true and every one before
      it is false; None when all are false. */
  function FirstTrue(bs: seq<bool>): (r: Option<nat>)
    ensures r.Some? ==> r.value < |bs| && bs[r.value]
    ensures r.Some? ==> forall j :: 0 <= j < r.value ==> !bs[j]
    ensures r.None? <==> forall j :: 0 <= j < |bs| ==> !bs[j]
    decreases |bs|
  {
    if |bs| == 0 then None
    else if bs[0] then Some(0)
    else
      match FirstTrue(bs[1..])
      case None => None
      case Some(i) => Some(i + 1)
  }

  /** The loop over PATH shared by `type` and by running a command: the path
      built from the first entry that supplies `name`, and None when no entry
      supplies it. */
  function Search(fs: FileSystem, cwd: string, dirs: seq<string>, name: string): (r: Option<string>)
    ensures r.Some? ==> IsFile(fs, cwd, r.value)
    ensures r.None? <==> forall j :: 0 <= j < |dirs| ==> !Provides(fs, cwd, dirs[j], name)
  {
    var hits := Hits(fs, cwd, dirs, name);
    assert forall j :: 0 <= j < |dirs| ==> hits[j] == Provides(fs, cwd, dirs[j], name);
    match FirstTrue(hits)
    case None => None
    case Some(i) => Some(PathJoin(dirs[i], name))
  }

  /** The search characterised without the loop: when entry `i` supplies
      `name` and no earlier entry does, the search finds the path through
      entry `i`. */
  lemma SearchFinds(fs: FileSystem, cwd: string, dirs: seq<string>, name: string, i: nat)
    requires i < |dirs| && Provides(fs, cwd, dirs[i], name)
    requires forall j :: 0 <= j < i ==> !Provides(fs, cwd, dirs[j], name)
    ensures Search(fs, cwd, dirs, name) == Some(PathJoin(dirs[i], name))
  {
    var hits := Hits(fs, cwd, dirs, name);
    forall j | 0 <= j < i ensures !hits[j] {
      assert !Provides(fs, cwd, dirs[j], name);
    }
    FirstTrueAt(hits, i);
  }

  /** A true entry with only false ones before it is the first true one. */
  lemma FirstTrueAt(bs: seq<bool>, i: nat)
    requires i < |bs| && bs[i]
    requires forall j :: 0 <= j < i ==> !bs[j]
    ensures FirstTrue(bs) == Some(i)
  {
  }

  /** One flag in front of a list: a true flag is the first true one, and
      otherwise the first true one of the list, shifted by one. */
  lemma FirstTrueCons(b: bool, bs: seq<bool>)
    ensures FirstTrue([b] + bs)
         == if b then Some(0) else match FirstTrue(bs) case None => None case Some(i) => Some(i + 1)
  {
    assert ([b] + bs)[1..] == bs;
  }

  /** The PATH entries with the empty ones removed: exactly the non-empty
      entries are kept. */
  function NonEmpty(dirs: seq<string>): (r: seq<string>)
    ensures |r| <= |dirs|
    ensures forall i :: 0 <= i < |r| ==> r[i] != ""
    ensures forall d :: d in r <==> d in dirs && d != ""
  {
    if |dirs| == 0 then []
    else if dirs[0] == "" then NonEmpty(dirs[1..])
    else [dirs[0]] + NonEmpty(dirs[1..])
  }

  /** Filtering keeps order: the non-empty entries of two lists one after
      the other are those of the first list, then those of the second. */
  lemma {:induction false} NonEmptyAppend(a: seq<string>, b: seq<string>)
    ensures NonEmpty(a + b) == NonEmpty(a) + NonEmpty(b)
    decreases |a|
  {
    if |a| == 0 {
      assert a + b == b;
    } else {
      AppendHead(a, b);
      NonEmptyAppend(a[1..], b);
      ConcatAssoc([a[0]], NonEmpty(a[1..]), NonEmpty(b));
    }
  }

  /** One entry in front of a list: it wins if it supplies the name, and
      otherwise the list decides. */
  lemma SearchCons(fs: FileSystem, cwd: string, dir: string, dirs: seq<string>, name: string)
    ensures Search(fs, cwd, [dir] + dirs, name)
         == if Provides(fs, cwd, dir, name) then Some(PathJoin(dir, name)) else Search(fs, cwd, dirs, name)
  {
    var all := [dir] + dirs;
    HitsCons(fs, cwd, dir, dirs, name);
    FirstTrueCons(Provides(fs, cwd, dir, name), Hits(fs, cwd, dirs, name));
    match FirstTrue(Hits(fs, cwd, dirs, name))
    case None =>
    case Some(i) => assert all[i + 1] == dirs[i];
  }

  /** The flags of one entry in front of a list: its own flag, then the list's. */
  lemma HitsCons(fs: FileSystem, cwd: string, dir: string, dirs: seq<string>, name: string)
    ensures Hits(fs, cwd, [dir] + dirs, name) == [Provides(fs, cwd, dir, name)] + Hits(fs, cwd, dirs, name)
  {
    var all := [dir] + dirs;
    forall i | 0 < i < |all| ensures all[i] == dirs[i - 1] { }
  }

  /** Skipping empty entries is all the search does with them: searching
      only the non-empty entries finds the same path. */
  lemma {:induction false} SearchSkipsEmpty(fs: FileSystem, cwd: string, dirs: seq<string>, name: string)
    ensures Search(fs, cwd, NonEmpty(dirs), name) == Search(fs, cwd, dirs, name)
    decreases |dirs|
  {
    if |dirs| > 0 {
      SearchSkipsEmpty(fs, cwd, dirs[1..], name);
      if dirs[0] != "" {
        SearchCons(fs, cwd, dirs[0], NonEmpty(dirs[1..]), name);
      }
      SearchCons(fs, cwd, dirs[0], dirs[1..], name);
      assert [dirs[0]] + dirs[1..] == dirs;
    }
  }

  /** The converse of `SearchFinds`: a path the search finds comes from an
      entry that supplies `name` with no earlier entry supplying it. */
  lemma SearchFound(fs: FileSystem, cwd: string, dirs: seq<string>, name: string) returns (i: nat)
    requires Search(fs, cwd, dirs, name).Some?
    ensures i < |dirs| && Provides(fs, cwd, dirs[i], name)
    ensures forall j :: 0 <= j < i ==> !Provides(fs, cwd, dirs[j], name)
    ensures Search(fs, cwd, dirs, name) == Some(PathJoin(dirs[i], name))
  {
    var hits := Hits(fs, cwd, dirs, name);
    i := FirstTrue(hits).value;
    assert hits[i];
    forall j | 0 <= j < i ensures !Provides(fs, cwd, dirs[j], name) {
      assert !hits[j];
    }
  }

  /** Earlier entries win: searching two lists one after the other finds
      what the first finds, and what the second finds only when the first
      finds nothing. */
  lemma SearchAppend(fs: FileSystem, cwd: string, first: seq<string>, second: seq<string>, name: string)
    ensures Search(fs, cwd, first + second, name)
         == if Search(fs, cwd, first, name).Some? then Search(fs, cwd, first, name) else Search(fs, cwd, second, name)
  {
    var all := first + second;
    if Search(fs, cwd, first, name).Some? {
      var i := SearchFound(fs, cwd, first, name);
      PrefixMisses(fs, cwd, first, second, name, i);
      SearchFinds(fs, cwd, all, name, i);
    } else if Search(fs, cwd, second, name).Some? {
      var k := SearchFound(fs, cwd, second, name);
      PrefixMisses(fs, cwd, first, second, name, |first|);
      AfterPrefixMisses(fs, cwd, first, second, name, k);
      assert all[|first| + k] == second[k];
      SearchFinds(fs, cwd, all, name, |first| + k);
    } else {
      AllMiss(fs, cwd, first, second, name);
    }
  }

  /** Entries of `first` that miss stay misses in `first + second`. */
  lemma PrefixMisses(fs: FileSystem, cwd: string, first: seq<string>, second: seq<string>, name: string, i: nat)
    requires i <= |first|
    requires forall j :: 0 <= j < i ==> !Provides(fs, cwd, first[j], name)
    ensures forall j :: 0 <= j < i ==> !Provides(fs, cwd, (first + second)[j], name)
  {
    forall j | 0 <= j < i ensures (first + second)[j] == first[j] { }
  }

  /** Misses in `first` and before position `k` of `second` are misses in
      `first + second` before position `|first| + k`. */
  lemma AfterPrefixMisses(fs: FileSystem, cwd: string, first: seq<string>, second: seq<string>, name: string, k: nat)
    requires k <= |second|
    requires forall j :: 0 <= j < |first| ==> !Provides(fs, cwd, (first + second)[j], name)
    requires forall j :: 0 <= j < k ==> !Provides(fs, cwd, second[j], name)
    ensures forall j :: 0 <= j < |first| + k ==> !Provides(fs, cwd, (first + second)[j], name)
  {
    forall j | |first| <= j < |first| + k ensures (first + second)[j] == second[j - |first|] { }
  }

  /** When neither list supplies `name`, neither does the two together. */
  lemma AllMiss(fs: FileSystem, cwd: string, first: seq<string>, second: seq<string>, name: string)
    requires Search(fs, cwd, first, name).None? && Search(fs, cwd, second, name).None?
    ensures Search(fs, cwd, first + second, name).None?
  {
    var all := first + second;
    forall j | 0 <= j < |all| ensures !Provides(fs, cwd, all[j], name) {
      if j < |first| {
        assert all[j] == first[j];
      } else {
        assert all[j] == second[j - |first|];
      }
    }
  }
}

=== FILE: shell.dfy ===
/**
 One turn of the shell's read loop: the stripped input line is split into
 tokens, the first token picks a builtin or an external program, and the
 turn ends with an effect and the session the next turn starts from.
 */
module Shell {
  import opened Wrappers
  import opened Text
  import opened Tokenizer
  import opened Paths

  /** The builtin commands. */
  datatype Builtin = Exit | Echo | Type | Pwd | Cd {
    /** The word that invokes the builtin. */
    function Name(): string {
      match this
      case Exit => "exit"
      case Echo => "echo"
      case Type => "type"
      case Pwd => "pwd"
      case Cd => "cd"
    }
  }

  /** The builtin list the shell keeps, in its own order. */
  const BuiltinNames: seq<string> := ["exit", "echo", "type", "pwd", "cd"]

  /** The builtin a command word names, if any: exactly the words on the
      builtin list name one, and the builtin found is named by that word. */
  function Classify(command: string): (r: Option<Builtin>)
    ensures r.Some? <==> command in BuiltinNames
    ensures r.Some? ==> r.value.Name() == command
  {
    if command == "exit" then Some(Exit)
    else if command == "echo" then Some(Echo)
    else if command == "type" then Some(Type)
    else if command == "pwd" then Some(Pwd)
    else if command == "cd" then Some(Cd)
    else None
  }

  /** Naming a builtin and classifying the name gives the builtin back, and
      every builtin is on the list. */
  lemma ClassifyName(b: Builtin)
    ensures b.Name() in BuiltinNames
    ensures Classify(b.Name()) == Some(b)
  {
  }

  /** The uncaught exceptions that end the shell. */
  datatype Fault =
    | NoCommand         // the line held no token: indexing the empty token list
    | MissingArgument   // `exit` or `type` without an argument
    | HomeUnset         // `cd ~` with HOME unset: changing to no directory
    | HomeNotDirectory  // `cd ~` with HOME naming no directory
    | NoPermission      // `cd` into a directory the shell may not enter

  /** What one turn does. */
  datatype Effect =
    | Silent                                      // nothing is written
    | Print(line: string)                         // one line on standard output
    | Spawn(program: string, args: seq<string>)  // run a program, relay its output
    | ExitShell(code: string)                     // leave with this status text
    | Crash(fault: Fault)                         // an exception ends the shell
  {
    /** The shell reads no further line after this effect. */
    predicate Ends() {
      ExitShell? || Crash?
    }
  }

  /** What carries over from one turn to the next: the PATH entries read at
      start-up, the value of HOME, and the working directory. */
  datatype Session = Session(dirs: seq<string>, home: Option<string>, cwd: string)

  /** The effect of a turn and the session after it. */
  datatype Outcome = Outcome(effect: Effect, next: Session)

  /** Start-up: PATH is split at every colon, empty entries kept; with PATH
      unset the shell fails before its first prompt. The entries hold no
      colon and joined with colons give PATH back. */
  function Start(path: Option<string>, home: Option<string>, cwd: string): (r: Option<Session>)
    ensures r.None? <==> path.None?
    ensures r.Some? ==> |r.value.dirs| >= 1
    ensures r.Some? ==> forall i :: 0 <= i < |r.value.dirs| ==> Avoids(r.value.dirs[i], ':')
    ensures r.Some? ==> JoinWith(r.value.dirs, ":") == path.value
    ensures r.Some? ==> r.value.home == home && r.value.cwd == cwd
  {
    match path
    case None => None
    case Some(p) =>
      JoinSplit(p, ':');
      Some(Session(SplitOn(p, ':'), home, cwd))
  }

  /** A PATH made of colon-free entries is read back as exactly those entries. */
  lemma StartReadsEntries(entries: seq<string>, home: Option<string>, cwd: string)
    requires |entries| >= 1
    requires forall i :: 0 <= i < |entries| ==> Avoids(entries[i], ':')
    ensures Start(Some(JoinWith(entries, ":")), home, cwd) == Some(Session(entries, home, cwd))
  {
    SplitJoin(entries, ':');
  }

  /** No PATH entry supplies `name`. */
  predicate NowhereOnPath(s: Session, fs: FileSystem, name: string) {
    forall j :: 0 <= j < |s.dirs| ==> !Provides(fs, s.cwd, s.dirs[j], name)
  }

  /** Entry `i` is the first PATH entry that supplies `name`. */
  predicate FirstOnPath(s: Session, fs: FileSystem, name: string, i: nat) {
    && i < |s.dirs|
    && Provides(fs, s.cwd, s.dirs[i], name)
    && forall j :: 0 <= j < i ==> !Provides(fs, s.cwd, s.dirs[j], name)
  }

  /** The line `type cmd` prints: builtins are reported as such, whatever
      PATH holds; otherwise the path through the first PATH entry that
      supplies `cmd`, or that it was not found. */
  function TypeReport(s: Session, fs: FileSystem, cmd: string): (line: string)
    ensures cmd in BuiltinNames ==> line == cmd + " is a shell builtin"
    ensures cmd !in BuiltinNames && NowhereOnPath(s, fs, cmd) ==> line == cmd + ": not found"
  {
    if cmd in BuiltinNames then cmd + " is a shell builtin"
    else
      match Search(fs, s.cwd, s.dirs, cmd)
      case Some(p) => cmd + " is " + p
      case None => cmd + ": not found"
  }

  /** `type` on a command the PATH supplies names the path through the first
      entry that supplies it. */
  lemma TypeReportFindsFirst(s: Session, fs: FileSystem, cmd: string, i: nat)
    requires cmd !in BuiltinNames && FirstOnPath(s, fs, cmd, i)
    ensures TypeReport(s, fs, cmd) == cmd + " is " + PathJoin(s.dirs[i], cmd)
  {
    SearchFinds(fs, s.cwd, s.dirs, cmd, i);
  }

  /** Running a command that is not a builtin: the program found through the
      first PATH entry that supplies it is run with the arguments, and when no
      entry does, the whole stripped line is reported as not found. */
  function RunExternal(s: Session, fs: FileSystem, line: string, command: string, args: seq<string>): (e: Effect)
    ensures e.Spawn? ==> IsFile(fs, s.cwd, e.program) && e.args == args
    ensures e.Spawn? || e == Print(line + ": command not found")
    ensures NowhereOnPath(s, fs, command) ==> e == Print(line + ": command not found")
  {
    match Search(fs, s.cwd, s.dirs, command)
    case Some(p) => Spawn(p, args)
    case None => Print(line + ": command not found")
  }

  /** The program run for a command the PATH supplies is the one through the
      first entry that supplies it. */
  lemma RunExternalFindsFirst(s: Session, fs: FileSystem, line: string, command: string, args: seq<string>, i: nat)
    requires FirstOnPath(s, fs, command, i)
    ensures RunExternal(s, fs, line, command, args) == Spawn(PathJoin(s.dirs[i], command), args)
  {
    SearchFinds(fs, s.cwd, s.dirs, command, i);
  }

  /** `type` and running agree: for a command that is not a builtin, `type`
      reports path `p` exactly when running the command runs `p`. */
  lemma TypeAgreesWithRun(s: Session, fs: FileSystem, line: string, command: string, args: seq<string>, p: string)
    requires command !in BuiltinNames
    ensures TypeReport(s, fs, command) == command + " is " + p
        <==> RunExternal(s, fs, line, command, args) == Spawn(p, args)
  {
    var report := TypeReport(s, fs, command);
    if Search(fs, s.cwd, s.dirs, command).None? {
      var found := command + " is " + p;
      assert report[|command|] == ':';
      assert found[|command|] == ' ';
    } else {
      var q := Search(fs, s.cwd, s.dirs, command).value;
      if report == command + " is " + p {
        assert (command + " is ") + q == (command + " is ") + p;
        assert q == ((command + " is ") + q)[|command + " is "|..];
      }
    }
  }

  /** The path `type` reports for a command without slashes ends in that
      command's name. */
  lemma TypeReportNamesCommand(s: Session, fs: FileSystem, cmd: string, i: nat)
    requires cmd !in BuiltinNames && FirstOnPath(s, fs, cmd, i) && Avoids(cmd, Slash)
    ensures exists p :: TypeReport(s, fs, cmd) == cmd + " is " + p && Basename(p) == cmd
  {
    TypeReportFindsFirst(s, fs, cmd, i);
    JoinBasename(s.dirs[i], cmd);
  }

  /** `cd` to `target`, the arguments joined without separators. `~` goes to
      HOME, and fails the shell when HOME is unset or names no directory; any
      other target that names no directory is reported. Changing into a
      directory the shell may not enter fails the shell. Only a silent change
      moves the working directory, always to where the target leads and into
      a directory it may enter, and nothing else changes. */
  function ChangeDirectory(s: Session, fs: FileSystem, target: string): (r: Outcome)
    ensures r.effect.Silent? || r.effect.Print? || r.effect.Crash?
    ensures r.effect.Silent? ==> r.next.cwd in fs.dirs && r.next.cwd !in fs.locked
    ensures r.effect.Silent? ==> r.next.dirs == s.dirs && r.next.home == s.home
    ensures r.effect.Silent? && target == "~" ==> s.home.Some? && r.next.cwd == Resolve(s.cwd, s.home.value)
    ensures r.effect.Silent? && target != "~" ==> r.next.cwd == Resolve(s.cwd, target)
    ensures !r.effect.Silent? ==> r.next == s
    ensures r.effect.Print? <==> target != "~" && !IsDir(fs, s.cwd, target)
    ensures r.effect.Print? ==> r.effect.line == "cd: " + target + ": No such file or directory"
    ensures r.effect.Crash? <==>
      if target == "~" then s.home.None? || !CanEnter(fs, s.cwd, s.home.value)
      else IsDir(fs, s.cwd, target) && !CanEnter(fs, s.cwd, target)
    ensures r.effect.Crash? && target == "~" && s.home.None? ==> r.effect.fault == HomeUnset
    ensures r.effect.Crash? && target == "~" && s.home.Some? && !IsDir(fs, s.cwd, s.home.value) ==> r.effect.fault == HomeNotDirectory
    ensures r.effect.Crash? && (target != "~" || (s.home.Some? && IsDir(fs, s.cwd, s.home.value))) ==> r.effect.fault == NoPermission
  {
    if target == "~" then
      match s.home
      case None => Outcome(Crash(HomeUnset), s)
      case Some(h) =>
        if !IsDir(fs, s.cwd, h) then Outcome(Crash(HomeNotDirectory), s)
        else if !CanEnter(fs, s.cwd, h) then Outcome(Crash(NoPermission), s)
        else Outcome(Silent, s.(cwd := Resolve(s.cwd, h)))
    else if !IsDir(fs, s.cwd, target) then Outcome(Print("cd: " + target + ": No such file or directory"), s)
    else if !CanEnter(fs, s.cwd, target) then Outcome(Crash(NoPermission), s)
    else Outcome(Silent, s.(cwd := Resolve(s.cwd, target)))
  }

  /** Changing to an absolute directory twice is changing to it once, and
      where the shell stands before does not matter. */
  lemma ChangeDirectoryAbsolute(s: Session, fs: FileSystem, target: string, elsewhere: string)
    requires IsAbsolute(target) && target in fs.dirs && target !in fs.locked
    ensures ChangeDirectory(s, fs, target) == Outcome(Silent, s.(cwd := target))
    ensures ChangeDirectory(s.(cwd := elsewhere), fs, target) == ChangeDirectory(s, fs, target)
    ensures ChangeDirectory(ChangeDirectory(s, fs, target).next, fs, target) == ChangeDirectory(s, fs, target)
  {
    assert target != "~";
  }

  /** A turn whose line has been split into `parts`. */
  function Dispatch(s: Session, fs: FileSystem, line: string, parts: seq<string>): (r: Outcome)
    ensures r.effect == Crash(NoCommand) <==> |parts| == 0
    ensures r.effect == Crash(MissingArgument) <==> |parts| == 1 && parts[0] in ["exit", "type"]
    ensures r.next.dirs == s.dirs && r.next.home == s.home
    ensures r.next.cwd != s.cwd ==> |parts| > 0 && parts[0] == "cd" && r.next.cwd in fs.dirs && r.next.cwd !in fs.locked
    ensures r.effect.Silent? ==> |parts| > 0 && parts[0] == "cd"
    ensures r.effect.ExitShell? ==> |parts| > 1 && parts[0] == "exit" && r.effect.code == parts[1]
    ensures r.effect.Spawn? ==> |parts| > 0 && parts[0] !in BuiltinNames && r.effect.args == parts[1..]
    ensures r.effect.Spawn? ==> IsFile(fs, s.cwd, r.effect.program)
  {
    if |parts| == 0 then Outcome(Crash(NoCommand), s)
    else
      var command, args := parts[0], parts[1..];
      match Classify(command)
      case Some(Exit) =>
        if |args| == 0 then Outcome(Crash(MissingArgument), s) else Outcome(ExitShell(args[0]), s)
      case Some(Echo) => Outcome(Print(JoinWith(args, " ")), s)
      case Some(Type) =>
        if |args| == 0 then Outcome(Crash(MissingArgument), s) else Outcome(Print(TypeReport(s, fs, args[0])), s)
      case Some(Pwd) => Outcome(Print(s.cwd), s)
      case Some(Cd) => ChangeDirectory(s, fs, JoinWith(args, ""))
      case None => Outcome(RunExternal(s, fs, line, command, args), s)
  }

  /** One turn of the read loop on the raw input line: the line is stripped
      of surrounding whitespace, split into tokens, and dispatched. */
  function Step(s: Session, fs: FileSystem, input: string): (o: Outcome)
    ensures o.next.dirs == s.dirs && o.next.home == s.home
    ensures o.next.cwd != s.cwd ==> |ParseInput(input)| > 0 && ParseInput(input)[0] == "cd"
    ensures o.effect.ExitShell? ==> |ParseInput(input)| > 1 && o.effect.code == ParseInput(input)[1]
    ensures o.effect.Spawn? ==> |ParseInput(input)| > 0 && ParseInput(input)[0] !in BuiltinNames
    ensures o.effect.Spawn? ==> o.effect.args == ParseInput(input)[1..]
  {
    var line := Trim(input, Whitespace);
    ParseInputIgnoresStrip(input);
    Dispatch(s, fs, line, ParseInput(line))
  }

  /** The tokens a turn acts on are those of the raw line: stripping first
      changes nothing. */
  lemma StepTokens(s: Session, fs: FileSystem, input: string)
    ensures Step(s, fs, input) == Dispatch(s, fs, Trim(input, Whitespace), ParseInput(input))
  {
    ParseInputIgnoresStrip(input);
  }

  /** A turn fails for want of a command exactly when the line is empty or
      all whitespace. */
  lemma StepBlankCrashes(s: Session, fs: FileSystem, input: string)
    ensures Step(s, fs, input).effect == Crash(NoCommand) <==> AllSpace(input)
  {
    StepTokens(s, fs, input);
    ParseInputEmptyIffBlank(input);
  }

  /** `echo` on a line without quotes prints its words separated by single
      spaces, however much whitespace stood between them. */
  lemma EchoNormalisesSpacing(s: Session, fs: FileSystem, input: string)
    requires Avoids(input, Quote)
    requires |Fields(input)| > 0 && Fields(input)[0] == "echo"
    ensures Step(s, fs, input) == Outcome(Print(JoinWith(Fields(input)[1..], " ")), s)
  {
    StepTokens(s, fs, input);
    ParseInputQuoteFree(input);
    DispatchEcho(s, fs, Trim(input, Whitespace), Fields(input));
  }

  /** A turn whose first token is `echo` prints the other tokens joined by spaces. */
  lemma DispatchEcho(s: Session, fs: FileSystem, line: string, parts: seq<string>)
    requires |parts| > 0 && parts[0] == "echo"
    ensures Dispatch(s, fs, line, parts) == Outcome(Print(JoinWith(parts[1..], " ")), s)
  {
  }

  /** `echo` with a quoted argument prints the text between the quotes as it
      stands, whitespace included. */
  lemma EchoKeepsQuotedText(s: Session, fs: FileSystem, inner: string)
    requires Avoids(inner, Quote)
    ensures Step(s, fs, "echo '" + inner + "'") == Outcome(Print(inner), s)
  {
    var input := "echo '" + inner + "'";
    assert input == "echo" + " '" + inner + "'";
    ParseInputQuotedArg("echo", inner);
    StepTokens(s, fs, input);
    DispatchEcho(s, fs, Trim(input, Whitespace), ["echo", inner]);
    assert ["echo", inner][1..] == [inner];
  }

  /** What `echo` prints splits at its spaces back into the arguments, when
      there is at least one argument and none holds a space. */
  lemma EchoRoundTrip(s: Session, fs: FileSystem, line: string, parts: seq<string>)
    requires |parts| > 1 && parts[0] == "echo"
    requires forall i :: 1 <= i < |parts| ==> Avoids(parts[i], ' ')
    ensures Dispatch(s, fs, line, parts).effect.Print?
    ensures SplitOn(Dispatch(s, fs, line, parts).effect.line, ' ') == parts[1..]
  {
    var args := parts[1..];
    forall i | 0 <= i < |args| ensures Avoids(args[i], ' ') {
      assert args[i] == parts[i + 1];
    }
    SplitJoin(args, ' ');
  }

  /** `cd` followed by a directory's absolute path, written without
      whitespace or quotes, moves there silently. */
  lemma StepCdAbsolute(s: Session, fs: FileSystem, d: string)
    requires IsAbsolute(d) && d in fs.dirs && d !in fs.locked && NoSpace(d) && Avoids(d, Quote)
    ensures Step(s, fs, "cd " + d) == Outcome(Silent, s.(cwd := d))
  {
    var words := ["cd", d];
    assert JoinWith(words, " ") == "cd " + d;
    ParseInputOfWords(words);
    StepTokens(s, fs, "cd " + d);
    DispatchCd(s, fs, Trim("cd " + d, Whitespace), words);
    assert JoinWith(words[1..], "") == d;
    ChangeDirectoryAbsolute(s, fs, d, s.cwd);
  }

  /** A turn whose first token is `cd` changes to the other tokens joined
      without separators. */
  lemma DispatchCd(s: Session, fs: FileSystem, line: string, parts: seq<string>)
    requires |parts| > 0 && parts[0] == "cd"
    ensures Dispatch(s, fs, line, parts) == ChangeDirectory(s, fs, JoinWith(parts[1..], ""))
  {
    assert Classify(parts[0]) == Some(Cd);
  }

  /** A line whose first token is `pwd` prints the working directory and
      changes nothing, whatever else the line holds. */
  lemma StepPwd(s: Session, fs: FileSystem, input: string)
    requires |ParseInput(input)| > 0 && ParseInput(input)[0] == "pwd"
    ensures Step(s, fs, input) == Outcome(Print(s.cwd), s)
  {
    StepTokens(s, fs, input);
    DispatchPwd(s, fs, Trim(input, Whitespace), ParseInput(input));
  }

  /** A turn whose first token is `pwd` prints the working directory; any
      further tokens are ignored. */
  lemma DispatchPwd(s: Session, fs: FileSystem, line: string, parts: seq<string>)
    requires |parts| > 0 && parts[0] == "pwd"
    ensures Dispatch(s, fs, line, parts) == Outcome(Print(s.cwd), s)
  {
    assert Classify(parts[0]) == Some(Pwd);
  }

  /** A turn whose first token is `exit` and that has an argument leaves with
      that argument. */
  lemma DispatchExit(s: Session, fs: FileSystem, line: string, parts: seq<string>)
    requires |parts| > 1 && parts[0] == "exit"
    ensures Dispatch(s, fs, line, parts) == Outcome(ExitShell(parts[1]), s)
  {
    assert Classify(parts[0]) == Some(Exit);
  }

  /** A turn whose first token is `type` and that has an argument prints the
      report on that argument; further tokens are ignored. */
  lemma DispatchType(s: Session, fs: FileSystem, line: string, parts: seq<string>)
    requires |parts| > 1 && parts[0] == "type"
    ensures Dispatch(s, fs, line, parts) == Outcome(Print(TypeReport(s, fs, parts[1])), s)
  {
    assert Classify(parts[0]) == Some(Type);
  }

  /** A turn whose first token is no builtin runs that command with the other
      tokens as its arguments, reporting the whole line when PATH does not
      supply it. */
  lemma DispatchExternal(s: Session, fs: FileSystem, line: string, parts: seq<string>)
    requires |parts| > 0 && parts[0] !in BuiltinNames
    ensures Dispatch(s, fs, line, parts) == Outcome(RunExternal(s, fs, line, parts[0], parts[1..]), s)
  {
    assert Classify(parts[0]).None?;
  }

  /** A line naming a command that is no builtin and that no PATH entry
      supplies prints the stripped line followed by `: command not found`. */
  lemma StepCommandNotFound(s: Session, fs: FileSystem, input: string)
    requires |ParseInput(input)| > 0 && ParseInput(input)[0] !in BuiltinNames
    requires NowhereOnPath(s, fs, ParseInput(input)[0])
    ensures Step(s, fs, input) == Outcome(Print(Trim(input, Whitespace) + ": command not found"), s)
  {
    var parts := ParseInput(input);
    StepTokens(s, fs, input);
    DispatchExternal(s, fs, Trim(input, Whitespace), parts);
  }

  /** The tokens of the line `pwd`. */
  lemma PwdLine()
    ensures ParseInput("pwd") == ["pwd"]
  {
    ParseInputOfWords(["pwd"]);
    assert JoinWith(["pwd"], " ") == "pwd";
  }

  /** Changing to an absolute directory and asking for the working directory
      prints that directory, and the shell goes on reading. */
  lemma CdThenPwd(s: Session, fs: FileSystem, d: string)
    requires IsAbsolute(d) && d in fs.dirs && d !in fs.locked && NoSpace(d) && Avoids(d, Quote)
    ensures Run(Turn(fs), s, ["cd " + d, "pwd"]) == [Silent, Print(d)]
  {
    var moved := s.(cwd := d);
    StepCdAbsolute(s, fs, d);
    PwdLine();
    StepPwd(moved, fs, "pwd");
    RunTwo(Turn(fs), s, "cd " + d, "pwd");
  }

  /** Two lines, the first of which does not end the shell: one effect each,
      the second from the session the first left. */
  lemma RunTwo(turn: (Session, string) -> Outcome, s: Session, a: string, b: string)
    requires !turn(s, a).effect.Ends()
    ensures Run(turn, s, [a, b]) == [turn(s, a).effect, turn(turn(s, a).next, b).effect]
  {
    assert [a, b][1..] == [b];
    assert [b][1..] == [];
  }

  /** One turn of the shell on a fixed file system. */
  function Turn(fs: FileSystem): (Session, string) -> Outcome {
    (s: Session, input: string) => Step(s, fs, input)
  }

  /** The session after each line in turn, up to the first line whose effect
      ends the shell. */
  function After(turn: (Session, string) -> Outcome, s: Session, inputs: seq<string>): Session
    decreases |inputs|
  {
    if |inputs| == 0 then s
    else
      var o := turn(s, inputs[0]);
      if o.effect.Ends() then o.next else After(turn, o.next, inputs[1..])
  }

  /** The read loop over a sequence of input lines: one effect per line read,
      and no line is read after an effect that ends the shell. */
  function Run(turn: (Session, string) -> Outcome, s: Session, inputs: seq<string>): (effects: seq<Effect>)
    ensures |effects| <= |inputs|
    ensures forall i :: 0 <= i < |effects| - 1 ==> !effects[i].Ends()
    ensures |effects| < |inputs| ==> |effects| > 0 && effects[|effects| - 1].Ends()
    decreases |inputs|
  {
    if |inputs| == 0 then []
    else
      var o := turn(s, inputs[0]);
      if o.effect.Ends() then [o.effect]
      else
        var rest := Run(turn, o.next, inputs[1..]);
        assert forall i :: 1 <= i < |rest| + 1 ==> ([o.effect] + rest)[i] == rest[i - 1];
        [o.effect] + rest
  }

  /** Lines are taken one after another: running two batches of lines is
      running the first and, unless it ended the shell, the second from the
      session the first left. */
  lemma {:induction false} RunAppend(turn: (Session, string) -> Outcome, s: Session, first: seq<string>, second: seq<string>)
    ensures Run(turn, s, first + second)
         == if |Run(turn, s, first)| < |first| || (|first| > 0 && Run(turn, s, first)[|first| - 1].Ends())
            then Run(turn, s, first)
            else Run(turn, s, first) + Run(turn, After(turn, s, first), second)
    decreases |first|
  {
    if |first| == 0 {
      assert first + second == second;
    } else {
      var o := turn(s, first[0]);
      AppendHead(first, second);
      if o.effect.Ends() {
        assert Run(turn, s, first) == [o.effect] == Run(turn, s, first + second);
      } else {
        var tail := Run(turn, o.next, first[1..]);
        RunAppend(turn, o.next, first[1..], second);
        assert Run(turn, s, first) == [o.effect] + tail;
        assert Run(turn, s, first + second) == [o.effect] + Run(turn, o.next, first[1..] + second);
        assert After(turn, s, first) == After(turn, o.next, first[1..]);
        ConcatAssoc([o.effect], tail, Run(turn, After(turn, o.next, first[1..]), second));
      }
    }
  }

  /** Across a run of the shell, the PATH entries and HOME never change, and
      the working directory is always the one it started in or a directory. */
  lemma {:induction false} AfterKeepsSettings(s: Session, fs: FileSystem, inputs: seq<string>)
    ensures After(Turn(fs), s, inputs).dirs == s.dirs && After(Turn(fs), s, inputs).home == s.home
    ensures After(Turn(fs), s, inputs).cwd == s.cwd
         || (After(Turn(fs), s, inputs).cwd in fs.dirs && After(Turn(fs), s, inputs).cwd !in fs.locked)
    decreases |inputs|
  {
    if |inputs| > 0 {
      var o := Step(s, fs, inputs[0]);
      assert Turn(fs)(s, inputs[0]) == o;
      if !o.effect.Ends() {
        AfterKeepsSettings(o.next, fs, inputs[1..]);
      }
    }
  }
}

=== FILE: text.dfy ===
/**
 This module holds the Python string operations the shell relies on:
 whitespace as `str.isspace` sees it, `str.strip`, `str.split(sep)` and
 `sep.join(parts)`. It also defines `str.split()` with no argument, which the
 shell does not call: it is the reference the lemmas about quote-free lines
 compare the tokenizer against. A section of its own holds a few generic
 facts about sequences that the proofs use.
 */
module Text {
  import opened Wrappers

  /** A Python whitespace character: the characters `str.isspace()` accepts,
      which are also the ones `\s` matches and `str.strip()` removes. */
  predicate IsSpace(c: char) {
    var n := c as int;
    || (0x09 <= n <= 0x0D)
    || (0x1C <= n <= 0x20)
    || n == 0x85 || n == 0xA0 || n == 0x1680
    || (0x2000 <= n <= 0x200A)
    || n == 0x2028 || n == 0x2029 || n == 0x202F || n == 0x205F || n == 0x3000
  }

  /** True when no character of `s` is whitespace. */
  predicate NoSpace(s: string) {
    forall i :: 0 <= i < |s| ==> !IsSpace(s[i])
  }

  /** True when `c` does not occur in `s`. */
  predicate Avoids(s: string, c: char) {
    forall i :: 0 <= i < |s| ==> s[i] != c
  }

  /** True when every character of `s` is whitespace. */
  predicate AllSpace(s: string) {
    forall i :: 0 <= i < |s| ==> IsSpace(s[i])
  }

  /** The characters `str.strip` removes: whitespace when called without an
      argument, otherwise the characters of its argument. */
  datatype Strippable = Whitespace | Chars(chars: set<char>)

  predicate Strips(k: Strippable, c: char) {
    match k
    case Whitespace => IsSpace(c)
    case Chars(chars) => c in chars
  }

  /** Removes the longest prefix whose characters all are in `k`. */
  function TrimStart(s: string, k: Strippable): (r: string)
    ensures |r| <= |s| && r == s[|s| - |r|..]
    ensures forall i :: 0 <= i < |s| - |r| ==> Strips(k, s[i])
    ensures |r| > 0 ==> !Strips(k, r[0])
    decreases |s|
  {
    if |s| > 0 && Strips(k, s[0]) then TrimStart(s[1..], k) else s
  }

  /** Removes the longest suffix whose characters all are in `k`. */
  function TrimEnd(s: string, k: Strippable): (r: string)
    ensures |r| <= |s| && r == s[..|r|]
    ensures forall i :: |r| <= i < |s| ==> Strips(k, s[i])
    ensures |r| > 0 ==> !Strips(k, r[|r| - 1])
    decreases |s|
  {
    if |s| > 0 && Strips(k, s[|s| - 1]) then TrimEnd(s[..|s| - 1], k) else s
  }

  /** Python's `str.strip(chars)`: the middle slice of `s` left once every
      leading and every trailing character in `k` is removed. */
  function Trim(s: string, k: Strippable): (r: string)
    ensures StripsTo(s, k, r)
  {
    TrimBoth(s, k);
    TrimEnd(TrimStart(s, k), k)
  }

  /** Trimming the front and then the back leaves a slice of `s` with only
      strippable characters around it. */
  lemma TrimBoth(s: string, k: Strippable)
    ensures TrimmedAt(s, k, |s| - |TrimStart(s, k)|, TrimEnd(TrimStart(s, k), k))
  {
    var t := TrimStart(s, k);
    TrimStartAt(s, k);
    TrimEndAt(t, k);
    TrimmedTwice(s, t, TrimEnd(t, k), k, |s| - |t|);
  }

  /** `TrimStart` trims `s` to a suffix. */
  lemma TrimStartAt(s: string, k: Strippable)
    ensures TrimmedAt(s, k, |s| - |TrimStart(s, k)|, TrimStart(s, k))
  {
  }

  /** `TrimEnd` trims `s` to a prefix. */
  lemma TrimEndAt(s: string, k: Strippable)
    ensures TrimmedAt(s, k, 0, TrimEnd(s, k))
  {
  }

  /** Trimming a suffix `t` of `s` to a prefix `r` of `t` trims `s` to `r`. */
  lemma TrimmedTwice(s: string, t: string, r: string, k: Strippable, a: nat)
    requires a + |t| == |s| && TrimmedAt(s, k, a, t)
    requires TrimmedAt(t, k, 0, r)
    ensures TrimmedAt(s, k, a, r)
  {
    forall i | a + |r| <= i < |s| ensures Strips(k, s[i]) {
      assert s[i] == t[i - a];
    }
  }

  /** `r` is the slice of `s` starting at `a`, and every character of `s`
      outside that slice is in `k`. */
  predicate TrimmedAt(s: string, k: Strippable, a: int, r: string) {
    && 0 <= a <= |s| - |r|
    && r == s[a..a + |r|]
    && (forall i :: 0 <= i < a ==> Strips(k, s[i]))
    && (forall i :: a + |r| <= i < |s| ==> Strips(k, s[i]))
  }

  /** `r` is what stripping `k` from both ends of `s` leaves: a slice of `s`
      with only characters in `k` around it, and neither end of it in `k`. */
  ghost predicate StripsTo(s: string, k: Strippable, r: string) {
    && (|r| > 0 ==> !Strips(k, r[0]) && !Strips(k, r[|r| - 1]))
    && exists a :: TrimmedAt(s, k, a, r)
  }

  /** At most one string is what stripping `k` from `s` leaves, so the
      contract of `Trim` determines its result. */
  lemma StripsToUnique(s: string, k: Strippable, r1: string, r2: string)
    requires StripsTo(s, k, r1) && StripsTo(s, k, r2)
    ensures r1 == r2
  {
    var a1 :| TrimmedAt(s, k, a1, r1);
    var a2 :| TrimmedAt(s, k, a2, r2);
    if |r1| > 0 {
      TrimmedAtBounds(s, k, a1, r1, a2, r2);
      TrimmedAtBounds(s, k, a2, r2, a1, r1);
    } else if |r2| > 0 {
      TrimmedAtBounds(s, k, a2, r2, a1, r1);
    }
  }

  /** A non-empty strip whose ends are not strippable lies within any other
      strip of the same string, which is then non-empty too. */
  lemma TrimmedAtBounds(s: string, k: Strippable, a1: int, r1: string, a2: int, r2: string)
    requires TrimmedAt(s, k, a1, r1) && TrimmedAt(s, k, a2, r2)
    requires |r1| > 0 && !Strips(k, r1[0]) && !Strips(k, r1[|r1| - 1])
    ensures |r2| > 0 && a2 <= a1 && a1 + |r1| <= a2 + |r2|
  {
    var e := a1 + |r1| - 1;
    assert s[a1] == r1[0];
    assert !Strips(k, s[a1]);
    assert s[e] == r1[|r1| - 1];
    assert !Strips(k, s[e]);
  }

  /** A line is the whitespace its strip removed in front, the stripped
      line, and the whitespace removed behind. */
  lemma StripParts(s: string) returns (front: string, back: string)
    ensures AllSpace(front) && AllSpace(back)
    ensures s == front + (Trim(s, Whitespace) + back)
  {
    var t := TrimStart(s, Whitespace);
    var r := TrimEnd(t, Whitespace);
    front := StrippedFront(s);
    back := StrippedBack(t);
    assert s == front + t;
    assert t == r + back;
  }

  /** What `TrimStart` removed from a line, all whitespace. */
  lemma StrippedFront(s: string) returns (front: string)
    ensures AllSpace(front)
    ensures s == front + TrimStart(s, Whitespace)
  {
    var t := TrimStart(s, Whitespace);
    var n := |s| - |t|;
    front := s[..n];
    SplitAt(s, n);
    forall i | 0 <= i < n ensures IsSpace(front[i]) {
      assert Strips(Whitespace, s[i]);
    }
  }

  /** What `TrimEnd` removed from a line, all whitespace. */
  lemma StrippedBack(s: string) returns (back: string)
    ensures AllSpace(back)
    ensures s == TrimEnd(s, Whitespace) + back
  {
    var r := TrimEnd(s, Whitespace);
    back := s[|r|..];
    forall i | 0 <= i < |back| ensures IsSpace(back[i]) {
      assert Strips(Whitespace, s[|r| + i]);
    }
  }

  /** The position of the first `c` in `s`, if any. */
  function IndexOf(s: string, c: char): (r: Option<nat>)
    ensures r.None? <==> Avoids(s, c)
    ensures r.Some? ==> r.value < |s| && s[r.value] == c && Avoids(s[..r.value], c)
  {
    if |s| == 0 then None
    else if s[0] == c then Some(0)
    else match IndexOf(s[1..], c)
      case None => None
      case Some(i) => Some(i + 1)
  }

  /** Python's `sep.join(parts)`. */
  function JoinWith(parts: seq<string>, sep: string): string
  {
    if |parts| == 0 then ""
    else if |parts| == 1 then parts[0]
    else parts[0] + sep + JoinWith(parts[1..], sep)
  }

  /** Python's `s.split(sep)` for a one-character separator: the pieces between
      separators, empty pieces kept, always at least one piece. */
  function SplitOn(s: string, sep: char): (r: seq<string>)
    ensures |r| >= 1
    ensures forall i :: 0 <= i < |r| ==> Avoids(r[i], sep)
    decreases |s|
  {
    if |s| == 0 then [""]
    else
      var rest := SplitOn(s[1..], sep);
      if s[0] == sep then [""] + rest
      else [[s[0]] + rest[0]] + rest[1..]
  }

  /** Joining the pieces of a split with the separator gives back the string. */
  lemma {:induction false} JoinSplit(s: string, sep: char)
    ensures JoinWith(SplitOn(s, sep), [sep]) == s
    decreases |s|
  {
    if |s| > 0 {
      var rest := SplitOn(s[1..], sep);
      JoinSplit(s[1..], sep);
      if s[0] == sep {
        assert JoinWith(SplitOn(s, sep), [sep]) == "" + [sep] + JoinWith(rest, [sep]);
        assert s == [s[0]] + s[1..];
      } else if |rest| == 1 {
        assert s == [s[0]] + s[1..];
      } else {
        var parts := SplitOn(s, sep);
        assert parts[1..] == rest[1..];
        assert JoinWith(rest, [sep]) == rest[0] + [sep] + JoinWith(rest[1..], [sep]);
        assert s == [s[0]] + s[1..];
      }
    }
  }

  /** Splitting `a + [sep] + b` where `a` holds no separator yields `a` first. */
  lemma {:induction false} SplitAfterPiece(a: string, sep: char, b: string)
    requires Avoids(a, sep)
    ensures SplitOn(a + [sep] + b, sep) == [a] + SplitOn(b, sep)
    decreases |a|
  {
    var s := a + [sep] + b;
    if |a| == 0 {
      assert s[1..] == b;
    } else {
      assert s[1..] == a[1..] + [sep] + b;
      SplitAfterPiece(a[1..], sep, b);
      assert [a[0]] + a[1..] == a;
    }
  }

  /** Splitting a string that holds no separator yields that string alone. */
  lemma {:induction false} SplitWhole(a: string, sep: char)
    requires Avoids(a, sep)
    ensures SplitOn(a, sep) == [a]
    decreases |a|
  {
    if |a| > 0 {
      SplitWhole(a[1..], sep);
      assert [a[0]] + a[1..] == a;
    }
  }

  /** Splitting the join of separator-free pieces gives back the pieces. */
  lemma {:induction false} SplitJoin(parts: seq<string>, sep: char)
    requires |parts| >= 1
    requires forall i :: 0 <= i < |parts| ==> Avoids(parts[i], sep)
    ensures SplitOn(JoinWith(parts, [sep]), sep) == parts
    decreases |parts|
  {
    if |parts| == 1 {
      SplitWhole(parts[0], sep);
    } else {
      SplitJoin(parts[1..], sep);
      SplitAfterPiece(parts[0], sep, JoinWith(parts[1..], [sep]));
      assert [parts[0]] + parts[1..] == parts;
    }
  }

  /** When `s[k..]` is `a + b`, a character `s` avoids is avoided by `a` and by `b`. */
  lemma AvoidsParts(s: string, k: nat, a: string, b: string, c: char)
    requires k <= |s| && s[k..] == a + b
    requires Avoids(s, c)
    ensures Avoids(a, c) && Avoids(b, c)
  {
    assert forall i :: 0 <= i < |a| ==> a[i] == s[k + i];
    assert forall i :: 0 <= i < |b| ==> b[i] == s[k + |a| + i];
  }

  // Generic facts about sequences, stated once for the proofs to call. They
  // are not Python operations.

  /** A string is its prefix up to `n` followed by the rest. The second
      ensures is the same fact for the slice `s[0..]`, as a proof hint. */
  lemma SplitAt(s: string, n: nat)
    requires n <= |s|
    ensures s == s[..n] + s[n..]
    ensures s[0..] == s[..n] + s[n..]
  {
  }

  /** Appending to a string split at `n` appends to its second part. */
  lemma SplitAppend(s: string, n: nat, w: string)
    requires n <= |s|
    ensures s + w == s[..n] + (s[n..] + w)
  {
    SplitAt(s, n);
  }

  /** A non-empty sequence is its first element followed by the rest, and so
      is anything appended to it. */
  lemma HeadTail<T>(s: seq<T>, w: seq<T>)
    requires |s| > 0
    ensures s == [s[0]] + s[1..]
    ensures s + w == [s[0]] + (s[1..] + w)
  {
  }

  /** The first element of a concatenation with a non-empty front, and what
      follows it. */
  lemma AppendHead<T>(a: seq<T>, b: seq<T>)
    requires |a| > 0
    ensures (a + b)[0] == a[0] && (a + b)[1..] == a[1..] + b
  {
  }

  /** Concatenation is associative. */
  lemma ConcatAssoc<T>(a: seq<T>, b: seq<T>, c: seq<T>)
    ensures a + (b + c) == (a + b) + c
  {
  }

  /** The two halves of a concatenation are recovered by slicing it. */
  lemma ConcatParts(a: string, b: string)
    ensures (a + b)[..|a|] == a && (a + b)[|a|..] == b
  {
  }

  /** Two strings without `c` joined hold no `c`. */
  lemma AvoidsConcat(a: string, b: string, c: char)
    requires Avoids(a, c) && Avoids(b, c)
    ensures Avoids(a + b, c)
  {
    forall i | 0 <= i < |a + b| ensures (a + b)[i] != c {
      if i >= |a| { assert (a + b)[i] == b[i - |a|]; }
    }
  }

  /** `c` is first found right after a prefix free of `c`. */
  lemma {:induction false} IndexOfAfterFree(a: string, b: string, c: char)
    requires Avoids(a, c)
    requires |b| > 0 && b[0] == c
    ensures IndexOf(a + b, c) == Some(|a|)
    decreases |a|
  {
    if |a| == 0 {
      assert a + b == b;
    } else {
      assert (a + b)[0] == a[0];
      assert (a + b)[1..] == a[1..] + b;
      IndexOfAfterFree(a[1..], b, c);
    }
  }

  /** A join of pieces none of which holds `c`, with a separator that does
      not hold `c`, does not hold `c`. */
  lemma {:induction false} JoinAvoids(parts: seq<string>, sep: string, c: char)
    requires Avoids(sep, c)
    requires forall i :: 0 <= i < |parts| ==> Avoids(parts[i], c)
    ensures Avoids(JoinWith(parts, sep), c)
    decreases |parts|
  {
    if |parts| > 1 {
      JoinAvoids(parts[1..], sep, c);
    }
  }

  /** Python's `s.split()` with no argument, as a character-by-character scan:
      `cur` is the field being collected; each whitespace character ends it. */
  function FieldsFrom(s: string, cur: string): (r: seq<string>)
    requires NoSpace(cur)
    ensures forall i :: 0 <= i < |r| ==> |r[i]| > 0 && NoSpace(r[i])
    decreases |s|
  {
    var done := if |cur| == 0 then [] else [cur];
    if |s| == 0 then done
    else if IsSpace(s[0]) then done + FieldsFrom(s[1..], "")
    else FieldsFrom(s[1..], cur + [s[0]])
  }

  /** Python's `s.split()`: the maximal runs of non-whitespace characters. */
  function Fields(s: string): (r: seq<string>)
    ensures forall i :: 0 <= i < |r| ==> |r[i]| > 0 && NoSpace(r[i])
  {
    FieldsFrom(s, "")
  }
}

=== FILE: tokenizer.dfy ===
/**
 The tokenizer of app/main.py (`parse_input`). The shell runs `re.findall`
 with the pattern `'[^']*'|\S+` and strips `'` from both ends of every match.
 `NextMatch` states what one search for that pattern finds, as a
 left-to-right scan: whitespace is skipped; at a `'` with a later `'` the
 match is the span up to that next `'`; otherwise the match is the maximal
 run of non-whitespace characters, embedded quotes included.
 */
module Tokenizer {
  import opened Wrappers
  import opened Text

  const Quote: char := '\''

  /** What `strip("'")` removes. */
  const Quotes: Strippable := Chars({Quote})

  /** One match of the pattern: a quoted span, remembered by what lies between
      its two quotes, or a bare run of non-whitespace characters. */
  datatype Lexeme = Quoted(inner: string) | Bare(text: string)

  /** The text of the input a lexeme matched. */
  function Raw(l: Lexeme): string {
    match l
    case Quoted(inner) => [Quote] + inner + [Quote]
    case Bare(text) => text
  }

  /** A bare run that starts with a quote: a `'` the scanner found no closing quote for. */
  predicate OpensUnterminated(l: Lexeme) {
    l.Bare? && |l.text| > 0 && l.text[0] == Quote
  }

  /** What a single match can look like. */
  predicate WellFormed(l: Lexeme) {
    match l
    case Quoted(inner) => Avoids(inner, Quote)
    case Bare(text) =>
      && |text| > 0
      && NoSpace(text)
      && (text[0] == Quote ==> Avoids(text[1..], Quote))
  }

  /** What a whole list of matches can look like: each is well formed, and
      nothing after an unterminated quote contains a quote. */
  predicate Valid(ls: seq<Lexeme>) {
    && (forall i :: 0 <= i < |ls| ==> WellFormed(ls[i]))
    && (forall i, j :: 0 <= i < j < |ls| && OpensUnterminated(ls[i]) ==> Avoids(Raw(ls[j]), Quote))
  }

  /** The length of the run of non-whitespace characters that starts `s`. */
  function RunLength(s: string): (n: nat)
    ensures n <= |s|
    ensures NoSpace(s[..n])
    ensures n == |s| || IsSpace(s[n])
    decreases |s|
  {
    if |s| == 0 || IsSpace(s[0]) then 0
    else
      var m := RunLength(s[1..]);
      assert s[..m + 1] == [s[0]] + s[1..][..m];
      1 + m
  }

  /** A match and the input that follows it. */
  datatype Match = Match(lexeme: Lexeme, rest: string)

  /** `m` is found in `s` after nothing but whitespace, and the rest of `s` follows it. */
  predicate Follows(s: string, m: Match) {
    var k := |s| - |m.rest| - |Raw(m.lexeme)|;
    0 <= k && AllSpace(s[..k]) && s[k..] == Raw(m.lexeme) + m.rest
  }

  /** The first match of the pattern in `s`, or None when only whitespace is
      left. The match is well formed, follows nothing but whitespace, and is
      followed by the rest; a bare run is maximal, so the rest is empty or
      opens with whitespace; an unterminated quote leaves no quote behind it. */
  function NextMatch(s: string): (r: Option<Match>)
    ensures r.None? <==> AllSpace(s)
    ensures r.Some? ==> WellFormed(r.value.lexeme)
    ensures r.Some? ==> Follows(s, r.value)
    ensures r.Some? && r.value.lexeme.Bare? ==> |r.value.rest| == 0 || IsSpace(r.value.rest[0])
    ensures r.Some? && OpensUnterminated(r.value.lexeme) ==> Avoids(r.value.rest, Quote)
    decreases |s|
  {
    if |s| == 0 then None
    else if IsSpace(s[0]) then
      var r := NextMatch(s[1..]);
      SkipSpace(s);
      if r.Some? then FollowsAfterSpace(s, r.value); r else r
    else if s[0] == Quote && IndexOf(s[1..], Quote).Some? then
      var j := IndexOf(s[1..], Quote).value;
      var m := Match(Quoted(s[1..j + 1]), s[j + 2..]);
      QuotedSpanFollows(s, j);
      Some(m)
    else
      var n := RunLength(s);
      var m := Match(Bare(s[..n]), s[n..]);
      BareRunFollows(s);
      Some(m)
  }

  /** A line that opens with whitespace is blank exactly when the rest is. */
  lemma SkipSpace(s: string)
    requires |s| > 0 && IsSpace(s[0])
    ensures AllSpace(s) <==> AllSpace(s[1..])
  {
    assert forall i :: 0 < i < |s| ==> s[i] == s[1..][i - 1];
  }

  /** A match found after the first character of `s`, that character being
      whitespace, is found in `s` too. */
  lemma FollowsAfterSpace(s: string, m: Match)
    requires |s| > 0 && IsSpace(s[0])
    requires Follows(s[1..], m)
    ensures Follows(s, m)
  {
    var k := |s| - 1 - |m.rest| - |Raw(m.lexeme)|;
    assert s[..k + 1] == [s[0]] + s[1..][..k];
    assert s[k + 1..] == s[1..][k..];
  }

  /** At a quote with a later quote at `j + 1`, the match is the span between them. */
  lemma QuotedSpanFollows(s: string, j: nat)
    requires |s| > 0 && s[0] == Quote && !IsSpace(s[0])
    requires IndexOf(s[1..], Quote) == Some(j)
    ensures !AllSpace(s)
    ensures WellFormed(Quoted(s[1..j + 1]))
    ensures Follows(s, Match(Quoted(s[1..j + 1]), s[j + 2..]))
  {
    assert s[1..j + 1] == s[1..][..j];
    assert s[0..] == [Quote] + s[1..j + 1] + [Quote] + s[j + 2..];
  }

  /** At any other non-whitespace character, the match is the run of
      non-whitespace characters starting there. */
  lemma BareRunFollows(s: string)
    requires |s| > 0 && !IsSpace(s[0])
    requires s[0] == Quote ==> IndexOf(s[1..], Quote).None?
    ensures !AllSpace(s)
    ensures WellFormed(Bare(s[..RunLength(s)]))
    ensures Follows(s, Match(Bare(s[..RunLength(s)]), s[RunLength(s)..]))
    ensures s[0] == Quote ==> Avoids(s[RunLength(s)..], Quote)
  {
    var n := RunLength(s);
    assert !IsSpace(s[0]);
    BareRunAt(s, n);
    if s[0] == Quote {
      UnterminatedRunParts(s);
    }
  }

  /** A run at the very start of `s` follows nothing. */
  lemma BareRunAt(s: string, n: nat)
    requires 0 < n <= |s|
    ensures Follows(s, Match(Bare(s[..n]), s[n..]))
  {
    SplitAt(s, n);
    assert |s| - |s[n..]| - |s[..n]| == 0;
  }

  /** Behind a quote that is never closed, neither the rest of the run nor
      what follows the run holds a quote. */
  lemma UnterminatedRunParts(s: string)
    requires |s| > 0 && !IsSpace(s[0]) && Avoids(s[1..], Quote)
    ensures Avoids(s[..RunLength(s)][1..], Quote)
    ensures Avoids(s[RunLength(s)..], Quote)
  {
    var n := RunLength(s);
    assert s[1..][n - 1..] == s[n..];
    assert s[1..][..n - 1] == s[..n][1..];
    AvoidsParts(s[1..], 0, s[..n][1..], s[n..], Quote);
  }

  /** All matches of `'[^']*'|\S+` in `s`, left to right: what `re.findall` returns. */
  function Scan(s: string): (ls: seq<Lexeme>)
    ensures |ls| <= |s|
    ensures forall i :: 0 <= i < |ls| ==> WellFormed(ls[i])
    decreases |s|
  {
    match NextMatch(s)
    case None => []
    case Some(m) =>
      assert |Raw(m.lexeme)| > 0;
      [m.lexeme] + Scan(m.rest)
  }

  /** A line without quotes has a first match without quotes and a rest without quotes. */
  lemma NextMatchQuoteFree(s: string)
    requires Avoids(s, Quote)
    requires NextMatch(s).Some?
    ensures Avoids(Raw(NextMatch(s).value.lexeme), Quote)
    ensures Avoids(NextMatch(s).value.rest, Quote)
  {
    var m := NextMatch(s).value;
    var k := |s| - |m.rest| - |Raw(m.lexeme)|;
    AvoidsParts(s, k, Raw(m.lexeme), m.rest, Quote);
  }

  /** A well-formed lexeme in front of a valid list keeps it valid, provided an
      unterminated quote is not followed by another quote. */
  lemma ValidCons(l: Lexeme, rest: seq<Lexeme>)
    requires WellFormed(l) && Valid(rest)
    requires OpensUnterminated(l) ==> forall j :: 0 <= j < |rest| ==> Avoids(Raw(rest[j]), Quote)
    ensures Valid([l] + rest)
  {
    var ls := [l] + rest;
    forall i, j | 0 <= i < j < |ls| && OpensUnterminated(ls[i])
      ensures Avoids(Raw(ls[j]), Quote)
    {
      assert ls[j] == rest[j - 1];
      if i > 0 { assert ls[i] == rest[i - 1]; }
    }
  }

  /** Every list of matches the scanner produces is valid, and a line without
      quotes yields matches without quotes. */
  lemma {:induction false} ScanValid(s: string)
    ensures Valid(Scan(s))
    ensures Avoids(s, Quote) ==> forall i :: 0 <= i < |Scan(s)| ==> Avoids(Raw(Scan(s)[i]), Quote)
    decreases |s|
  {
    match NextMatch(s)
    case None =>
    case Some(m) =>
      assert |m.rest| < |s|;
      ScanValid(m.rest);
      ValidCons(m.lexeme, Scan(m.rest));
      if Avoids(s, Quote) {
        NextMatchQuoteFree(s);
        QuoteFreeCons(m.lexeme, Scan(m.rest));
      }
  }

  /** A quote-free text in front of quote-free texts: all are quote-free. */
  lemma QuoteFreeCons(l: Lexeme, rest: seq<Lexeme>)
    requires Avoids(Raw(l), Quote)
    requires forall j :: 0 <= j < |rest| ==> Avoids(Raw(rest[j]), Quote)
    ensures forall j :: 0 <= j < |[l] + rest| ==> Avoids(Raw(([l] + rest)[j]), Quote)
  {
    forall j | 0 < j < |[l] + rest| ensures ([l] + rest)[j] == rest[j - 1] { }
  }

  /** The texts the lexemes matched, in order. */
  function Raws(ls: seq<Lexeme>): seq<string> {
    seq(|ls|, i requires 0 <= i < |ls| => Raw(ls[i]))
  }

  /** Nothing is trimmed from the start of a quote-free string. */
  lemma QuoteFreeTrimStart(s: string)
    requires Avoids(s, Quote)
    ensures TrimStart(s, Quotes) == s
  {
  }

  /** Nothing is trimmed from the end of a quote-free string. */
  lemma QuoteFreeTrimEnd(s: string)
    requires Avoids(s, Quote)
    ensures TrimEnd(s, Quotes) == s
  {
  }

  /** Stripping quotes from `'inner'` gives back `inner` when `inner` holds no quote. */
  lemma TrimQuotedSpan(inner: string)
    requires Avoids(inner, Quote)
    ensures Trim([Quote] + inner + [Quote], Quotes) == inner
  {
    var s := [Quote] + inner + [Quote];
    assert s[1..] == inner + [Quote];
    assert TrimStart(s, Quotes) == TrimStart(inner + [Quote], Quotes);
    if |inner| == 0 {
      assert TrimStart([Quote], Quotes) == TrimStart([], Quotes);
    } else {
      assert TrimStart(inner + [Quote], Quotes) == inner + [Quote];
      assert (inner + [Quote])[..|inner|] == inner;
      QuoteFreeTrimEnd(inner);
    }
  }

  /** Stripping quotes from a bare run keeps it free of whitespace, and leaves
      a run without quotes as it is. */
  lemma TrimBareRun(text: string)
    requires NoSpace(text)
    ensures NoSpace(Trim(text, Quotes))
    ensures Avoids(text, Quote) ==> Trim(text, Quotes) == text
  {
    var t := Trim(text, Quotes);
    var a :| TrimmedAt(text, Quotes, a, t);
    assert forall k :: 0 <= k < |t| ==> t[k] == text[a + k];
    if Avoids(text, Quote) {
      QuoteFreeTrimStart(text);
      QuoteFreeTrimEnd(text);
    }
  }

  /** The token a match becomes once `'` is stripped from both of its ends. */
  function TokenOf(l: Lexeme): (t: string)
    requires WellFormed(l)
    ensures StripsTo(Raw(l), Quotes, t)
    ensures |t| > 0 ==> t[0] != Quote && t[|t| - 1] != Quote
    ensures l.Quoted? ==> t == l.inner
    ensures l.Bare? ==> NoSpace(t)
    ensures l.Bare? && Avoids(l.text, Quote) ==> t == l.text
  {
    var t := Trim(Raw(l), Quotes);
    assert |t| > 0 ==> t[0] != Quote && t[|t| - 1] != Quote;
    if l.Quoted? then TrimQuotedSpan(l.inner); t
    else TrimBareRun(l.text); t
  }

  /** A run that ends in a quote it never opened, like `abc'`, loses just
      that quote. */
  lemma TokenOfTrailingQuote(w: string)
    requires |w| > 0 && NoSpace(w) && Avoids(w, Quote)
    ensures WellFormed(Bare(w + [Quote]))
    ensures TokenOf(Bare(w + [Quote])) == w
  {
    var text := w + [Quote];
    assert text[0] == w[0] && text[1..] == w[1..] + [Quote];
    StripsTrailingQuote(w);
    StripsToUnique(text, Quotes, w, TokenOf(Bare(text)));
  }

  /** Stripping quotes from a quote-free string with one quote appended
      leaves the string. */
  lemma StripsTrailingQuote(w: string)
    requires Avoids(w, Quote)
    ensures StripsTo(w + [Quote], Quotes, w)
  {
    var text := w + [Quote];
    assert text[..|w|] == w;
    assert TrimmedAt(text, Quotes, 0, w);
  }

  /** `parse_input`: the tokens of a line, one per match, each what
      stripping quotes from both ends of the match leaves. No token starts or
      ends with a quote; a quoted span gives exactly what lies between its
      quotes; any other match gives a token without whitespace. */
  function ParseInput(line: string): (tokens: seq<string>)
    ensures |tokens| == |Scan(line)|
    ensures var ls := Scan(line); forall i :: 0 <= i < |tokens| ==> StripsTo(Raw(ls[i]), Quotes, tokens[i])
    ensures forall i :: 0 <= i < |tokens| ==> |tokens[i]| == 0 || (tokens[i][0] != Quote && tokens[i][|tokens[i]| - 1] != Quote)
    ensures var ls := Scan(line); forall i :: 0 <= i < |tokens| && ls[i].Quoted? ==> tokens[i] == ls[i].inner
    ensures var ls := Scan(line); forall i :: 0 <= i < |tokens| && ls[i].Bare? ==> NoSpace(tokens[i])
  {
    ScanValid(line);
    var ls := Scan(line);
    seq(|ls|, i requires 0 <= i < |ls| => TokenOf(ls[i]))
  }

  /** A line yields no matches exactly when it is empty or all whitespace. */
  lemma ScanEmptyIffBlank(s: string)
    ensures Scan(s) == [] <==> AllSpace(s)
  {
  }

  /** `parse_input` returns the empty list exactly for an empty or blank line. */
  lemma ParseInputEmptyIffBlank(s: string)
    ensures ParseInput(s) == [] <==> AllSpace(s)
  {
    ScanEmptyIffBlank(s);
  }

  /** Leading whitespace does not change the first match. */
  lemma {:induction false} NextMatchAfterSpace(w: string, s: string)
    requires AllSpace(w)
    ensures NextMatch(w + s) == NextMatch(s)
    decreases |w|
  {
    if |w| == 0 {
      assert w + s == s;
    } else {
      assert (w + s)[0] == w[0];
      assert (w + s)[1..] == w[1..] + s;
      NextMatchAfterSpace(w[1..], s);
    }
  }

  /** Leading whitespace does not change the matches. */
  lemma ScanSkipsLeadingSpace(w: string, s: string)
    requires AllSpace(w)
    ensures Scan(w + s) == Scan(s)
  {
    NextMatchAfterSpace(w, s);
  }

  /** The run at the start of `s` stays the same when whitespace is appended. */
  lemma {:induction false} RunLengthBeforeSpace(s: string, w: string)
    requires AllSpace(w)
    ensures RunLength(s + w) == RunLength(s)
    decreases |s|
  {
    if |s| == 0 {
      assert s + w == w;
    } else {
      assert (s + w)[0] == s[0];
      if !IsSpace(s[0]) {
        assert (s + w)[1..] == s[1..] + w;
        RunLengthBeforeSpace(s[1..], w);
      }
    }
  }

  /** A character found in `s` is first found at the same place in `s + w`. */
  lemma {:induction false} IndexOfInPrefix(s: string, w: string, c: char)
    requires IndexOf(s, c).Some?
    ensures IndexOf(s + w, c) == IndexOf(s, c)
    decreases |s|
  {
    assert (s + w)[0] == s[0];
    if s[0] != c {
      assert (s + w)[1..] == s[1..] + w;
      IndexOfInPrefix(s[1..], w, c);
    }
  }

  /** Appending whitespace to a line extends only the rest after its first match. */
  lemma {:induction false} NextMatchBeforeSpace(s: string, w: string)
    requires AllSpace(w)
    ensures NextMatch(s).None? ==> NextMatch(s + w).None?
    ensures NextMatch(s).Some? ==> NextMatch(s + w) == Some(Match(NextMatch(s).value.lexeme, NextMatch(s).value.rest + w))
    decreases |s|
  {
    var sw := s + w;
    if |s| == 0 {
      assert sw == w;
    } else {
      assert sw[0] == s[0];
      assert sw[1..] == s[1..] + w;
      if IsSpace(s[0]) {
        NextMatchBeforeSpace(s[1..], w);
      } else if s[0] == Quote && IndexOf(s[1..], Quote).Some? {
        QuotedBeforeSpace(s, w);
      } else {
        BareBeforeSpace(s, w);
      }
    }
  }

  /** A quoted span at the start of `s` is still the first match of `s + w`. */
  lemma QuotedBeforeSpace(s: string, w: string)
    requires |s| > 0 && s[0] == Quote && IndexOf(s[1..], Quote).Some?
    ensures var j := IndexOf(s[1..], Quote).value;
      NextMatch(s + w) == Some(Match(Quoted(s[1..j + 1]), s[j + 2..] + w))
  {
    var sw := s + w;
    assert sw[0] == s[0];
    assert sw[1..] == s[1..] + w;
    IndexOfInPrefix(s[1..], w, Quote);
    var j := IndexOf(s[1..], Quote).value;
    assert sw[1..j + 1] == s[1..j + 1];
    assert sw[j + 2..] == s[j + 2..] + w;
  }

  /** A bare run at the start of `s` is still the first match of `s + w`
      when `w` is whitespace. */
  lemma BareBeforeSpace(s: string, w: string)
    requires AllSpace(w)
    requires |s| > 0 && !IsSpace(s[0])
    requires s[0] == Quote ==> IndexOf(s[1..], Quote).None?
    ensures NextMatch(s + w) == Some(Match(Bare(s[..RunLength(s)]), s[RunLength(s)..] + w))
  {
    var n := RunLength(s);
    BareRunFollows(s);
    BareTailBeforeSpace(s, w);
    SplitAppend(s, n, w);
    NextMatchOfBare(s[..n], s[n..] + w);
  }

  /** What follows the first bare run of `s + w`, for whitespace `w`: empty or
      starting with whitespace, and free of quotes behind an unclosed quote. */
  lemma BareTailBeforeSpace(s: string, w: string)
    requires AllSpace(w)
    requires |s| > 0 && !IsSpace(s[0])
    requires s[0] == Quote ==> Avoids(s[RunLength(s)..], Quote)
    ensures var tail := s[RunLength(s)..] + w; |tail| == 0 || IsSpace(tail[0])
    ensures s[0] == Quote ==> Avoids(s[RunLength(s)..] + w, Quote)
  {
    var n := RunLength(s);
    if n < |s| {
      assert (s[n..] + w)[0] == s[n];
    } else {
      assert s[n..] + w == w;
    }
    if s[0] == Quote {
      assert Avoids(w, Quote);
      AvoidsConcat(s[n..], w, Quote);
    }
  }

  /** Trailing whitespace does not change the matches. */
  lemma {:induction false} ScanIgnoresTrailingSpace(s: string, w: string)
    requires AllSpace(w)
    ensures Scan(s + w) == Scan(s)
    decreases |s|
  {
    NextMatchBeforeSpace(s, w);
    match NextMatch(s)
    case None =>
    case Some(m) =>
      assert |Raw(m.lexeme)| > 0;
      ScanIgnoresTrailingSpace(m.rest, w);
  }

  /** The shell strips the line it reads before tokenizing it; that strip
      does not change the tokens. */
  lemma ParseInputIgnoresStrip(s: string)
    ensures ParseInput(Trim(s, Whitespace)) == ParseInput(s)
  {
    ScanIgnoresStrip(s);
  }

  /** Stripping whitespace from both ends of a line does not change its matches. */
  lemma ScanIgnoresStrip(s: string)
    ensures Scan(Trim(s, Whitespace)) == Scan(s)
  {
    var t := Trim(s, Whitespace);
    var front, back := StripParts(s);
    ScanSkipsLeadingSpace(front, t + back);
    ScanIgnoresTrailingSpace(t, back);
  }

  /** An unterminated `'` is no error. After quote-free words, at the start
      of a run, a quote that is never closed is matched by `\S+`: its token
      is the rest of that run, and the words before it and after it are
      split at whitespace as usual. `echo 'abc` gives `echo` and `abc`. */
  lemma UnterminatedQuoteFallsBack(pre: string, q: string)
    requires Avoids(pre, Quote) && (|pre| == 0 || IsSpace(pre[|pre| - 1]))
    requires |q| > 0 && q[0] == Quote && Avoids(q[1..], Quote)
    ensures ParseInput(pre + q) == Fields(pre) + [q[1..RunLength(q)]] + Fields(q[RunLength(q)..])
  {
    ScanQuoteFreePrefix(pre, q);
    ParseInputAppend(pre, q);
    ParseInputQuoteFree(pre);
    ParseInputUnterminated(q);
  }

  /** The tokens of a line that opens with a quote that is never closed: the
      rest of the run after the quote, then the fields of what follows. */
  lemma ParseInputUnterminated(q: string)
    requires |q| > 0 && q[0] == Quote && Avoids(q[1..], Quote)
    ensures ParseInput(q) == [q[1..RunLength(q)]] + Fields(q[RunLength(q)..])
  {
    var n := RunLength(q);
    var text, rest := q[..n], q[n..];
    UnterminatedScan(q);
    ParseInputAppend(text, rest);
    UnterminatedToken(text);
    ParseInputQuoteFree(rest);
  }

  /** A line opening with an unclosed quote scans as the run there, then
      the quote-free rest. */
  lemma UnterminatedScan(q: string)
    requires |q| > 0 && q[0] == Quote && Avoids(q[1..], Quote)
    ensures var n := RunLength(q);
      && WellFormed(Bare(q[..n])) && q[..n][0] == Quote && Avoids(q[n..], Quote)
      && q[..n] + q[n..] == q
      && Scan(q[..n] + q[n..]) == Scan(q[..n]) + Scan(q[n..])
  {
    var n := RunLength(q);
    var text, rest := q[..n], q[n..];
    UnterminatedRun(q);
    ScanOfRaw(Bare(text), rest);
    ScanOfRaw(Bare(text), "");
    assert text + "" == text;
  }

  /** The run that opens a line with an unclosed quote, and what follows it. */
  lemma UnterminatedRun(q: string)
    requires |q| > 0 && q[0] == Quote && Avoids(q[1..], Quote)
    ensures var n := RunLength(q);
      && WellFormed(Bare(q[..n])) && q[..n][0] == Quote
      && (|q[n..]| == 0 || IsSpace(q[n..][0])) && Avoids(q[n..], Quote)
      && q[..n] + q[n..] == q
  {
    var n := RunLength(q);
    assert !IsSpace(q[0]);
    UnterminatedRunParts(q);
    SplitAt(q, n);
  }

  /** The token of a run that opens with its only quote is the rest of the run. */
  lemma UnterminatedToken(text: string)
    requires WellFormed(Bare(text)) && text[0] == Quote
    ensures ParseInput(text) == [text[1..]]
  {
    ScanOfLexeme(Bare(text));
    ParseInputOfOne(text, Bare(text));
    TokenOfUnterminated(text);
  }

  /** A lexeme's own text scans to just that lexeme. */
  lemma ScanOfLexeme(l: Lexeme)
    requires WellFormed(l)
    ensures Scan(Raw(l)) == [l]
  {
    ScanOfRaw(l, "");
    assert Raw(l) + "" == Raw(l);
  }

  /** A line with a single match has a single token, that match's. */
  lemma ParseInputOfOne(line: string, l: Lexeme)
    requires WellFormed(l) && Scan(line) == [l]
    ensures ParseInput(line) == [TokenOf(l)]
  {
    TokenAt(line, 0);
  }

  /** The token of a run that opens with its only quote. */
  lemma TokenOfUnterminated(text: string)
    requires WellFormed(Bare(text)) && text[0] == Quote
    ensures TokenOf(Bare(text)) == text[1..]
  {
    TrimUnterminated(text);
  }

  /** When the matches of `x + y` are those of `x` followed by those of `y`,
      so are the tokens. */
  lemma ParseInputAppend(x: string, y: string)
    requires Scan(x + y) == Scan(x) + Scan(y)
    ensures ParseInput(x + y) == ParseInput(x) + ParseInput(y)
  {
    var ls := Scan(x + y);
    var a, b := ParseInput(x), ParseInput(y);
    forall i | 0 <= i < |ls| ensures ParseInput(x + y)[i] == (a + b)[i] {
      TokenAt(x + y, i);
      if i < |a| {
        TokenAt(x, i);
        assert ls[i] == Scan(x)[i];
      } else {
        TokenAt(y, i - |a|);
        assert ls[i] == Scan(y)[i - |a|];
      }
    }
  }

  /** Each token is taken from the match in the same position. */
  lemma TokenAt(line: string, i: nat)
    requires i < |Scan(line)|
    ensures WellFormed(Scan(line)[i]) && ParseInput(line)[i] == TokenOf(Scan(line)[i])
  {
    ScanValid(line);
  }

  /** Quote-free text ending in whitespace, in front of a line, contributes
      its own matches and leaves the line's matches as they are. */
  lemma {:induction false} ScanQuoteFreePrefix(pre: string, q: string)
    requires Avoids(pre, Quote) && (|pre| == 0 || IsSpace(pre[|pre| - 1]))
    ensures Scan(pre + q) == Scan(pre) + Scan(q)
    decreases |pre|
  {
    if AllSpace(pre) {
      ScanEmptyIffBlank(pre);
      ScanSkipsLeadingSpace(pre, q);
    } else if IsSpace(pre[0]) {
      QuoteFreeSuffix(pre, 1);
      ScanQuoteFreePrefix(pre[1..], q);
      SpaceBeforeLine(pre, q);
    } else {
      var n := RunLength(pre);
      assert !IsSpace(pre[n - 1]);
      QuoteFreeSuffix(pre, n);
      ScanQuoteFreePrefix(pre[n..], q);
      WordBeforeLine(pre, q);
    }
  }

  /** A non-empty suffix of quote-free text ending in whitespace is such text too. */
  lemma QuoteFreeSuffix(pre: string, k: nat)
    requires Avoids(pre, Quote) && 0 < k < |pre| && IsSpace(pre[|pre| - 1])
    ensures Avoids(pre[k..], Quote) && IsSpace(pre[k..][|pre[k..]| - 1])
  {
  }

  /** One step of `ScanQuoteFreePrefix` over a whitespace character. */
  lemma SpaceBeforeLine(pre: string, q: string)
    requires |pre| > 0 && IsSpace(pre[0])
    requires Scan(pre[1..] + q) == Scan(pre[1..]) + Scan(q)
    ensures Scan(pre + q) == Scan(pre) + Scan(q)
  {
    var p := pre[1..];
    HeadTail(pre, q);
    ScanSkipsLeadingSpace([pre[0]], p);
    ScanSkipsLeadingSpace([pre[0]], p + q);
  }

  /** One step of `ScanQuoteFreePrefix` over the quote-free run opening `pre`. */
  lemma WordBeforeLine(pre: string, q: string)
    requires Avoids(pre, Quote) && |pre| > 0 && !IsSpace(pre[0]) && IsSpace(pre[|pre| - 1])
    requires RunLength(pre) < |pre|
    requires Scan(pre[RunLength(pre)..] + q) == Scan(pre[RunLength(pre)..]) + Scan(q)
    ensures Scan(pre + q) == Scan(pre) + Scan(q)
  {
    var n := RunLength(pre);
    var w := Bare(pre[..n]);
    ScanOfRun(pre);
    SplitAppend(pre, n, q);
    ScanOfRaw(w, pre[n..] + q);
    ConcatAssoc([w], Scan(pre[n..]), Scan(q));
  }

  /** Stripping quotes from a run that opens with the only quote in it
      drops just that quote. */
  lemma TrimUnterminated(text: string)
    requires |text| > 0 && text[0] == Quote
    requires Avoids(text[1..], Quote)
    ensures Trim(text, Quotes) == text[1..]
  {
    QuoteFreeTrimStart(text[1..]);
    QuoteFreeTrimEnd(text[1..]);
  }

  /** Fields collected by `str.split()` while the field `cur` is under way
      (or about to start at a non-whitespace character): the field absorbs
      the run at the start of `s`. */
  lemma {:induction false} FieldsFromExtends(s: string, cur: string)
    requires NoSpace(cur)
    requires |cur| > 0 || (|s| > 0 && !IsSpace(s[0]))
    ensures FieldsFrom(s, cur) == [cur + s[..RunLength(s)]] + Fields(s[RunLength(s)..])
    decreases |s|
  {
    if |s| == 0 || IsSpace(s[0]) {
      assert cur + s[..0] == cur;
      assert s[0..] == s;
    } else {
      var c := cur + [s[0]];
      FieldsFromExtends(s[1..], c);
      var m := RunLength(s[1..]);
      assert c + s[1..][..m] == cur + s[..m + 1];
      assert s[1..][m..] == s[m + 1..];
    }
  }

  /** `str.split()` on a line opening with a non-whitespace character: the
      run there is the first field. */
  lemma FieldsOfRun(s: string)
    requires |s| > 0 && !IsSpace(s[0])
    ensures Fields(s) == [s[..RunLength(s)]] + Fields(s[RunLength(s)..])
  {
    FieldsFromExtends(s, "");
    assert "" + s[..RunLength(s)] == s[..RunLength(s)];
  }

  /** On a quote-free line opening with a non-whitespace character, the run
      there is the first match. */
  lemma ScanOfRun(s: string)
    requires |s| > 0 && !IsSpace(s[0]) && Avoids(s, Quote)
    ensures Scan(s) == [Bare(s[..RunLength(s)])] + Scan(s[RunLength(s)..])
    ensures Avoids(s[RunLength(s)..], Quote)
  {
    var n := RunLength(s);
    BareRunFollows(s);
    SplitAt(s, n);
    NextMatchOfBare(s[..n], s[n..]);
    AvoidsParts(s, 0, s[..n], s[n..], Quote);
  }

  /** On a line without quotes the matches are exactly Python's `str.split()`. */
  lemma {:induction false} ScanQuoteFreeIsFields(s: string)
    requires Avoids(s, Quote)
    ensures Raws(Scan(s)) == Fields(s)
    decreases |s|
  {
    if |s| > 0 {
      if IsSpace(s[0]) {
        assert Avoids(s[1..], Quote);
        ScanQuoteFreeIsFields(s[1..]);
      } else {
        var n := RunLength(s);
        ScanOfRun(s);
        FieldsOfRun(s);
        ScanQuoteFreeIsFields(s[n..]);
        RawsCons(Bare(s[..n]), Scan(s[n..]));
      }
    }
  }

  /** The texts of a lexeme in front of others: its own text first. */
  lemma RawsCons(l: Lexeme, ls: seq<Lexeme>)
    ensures Raws([l] + ls) == [Raw(l)] + Raws(ls)
  {
    var all := [l] + ls;
    forall i | 0 < i < |all| ensures all[i] == ls[i - 1] { }
  }

  /** For a line containing no `'`, `parse_input` equals splitting on
      whitespace runs with empty pieces dropped, in input order. */
  lemma ParseInputQuoteFree(s: string)
    requires Avoids(s, Quote)
    ensures ParseInput(s) == Fields(s)
  {
    ScanQuoteFreeIsFields(s);
    ScanValid(s);
  }

  /** Words without whitespace joined by single spaces split back into the
      words under `str.split()`. */
  lemma {:induction false} FieldsOfJoin(words: seq<string>)
    requires forall i :: 0 <= i < |words| ==> |words[i]| > 0 && NoSpace(words[i])
    ensures Fields(JoinWith(words, " ")) == words
    decreases |words|
  {
    if |words| == 1 {
      FieldsOfWord(words[0], "");
      assert words[0] + "" == words[0];
    } else if |words| > 1 {
      var w, rest := words[0], JoinWith(words[1..], " ");
      assert JoinWith(words, " ") == w + (" " + rest);
      FieldsOfWord(w, " " + rest);
      FieldsAfterSpace(rest);
      FieldsOfJoin(words[1..]);
      assert [w] + words[1..] == words;
    }
  }

  /** A word followed by nothing or by whitespace is the first field. */
  lemma FieldsOfWord(w: string, tail: string)
    requires |w| > 0 && NoSpace(w)
    requires |tail| == 0 || IsSpace(tail[0])
    ensures Fields(w + tail) == [w] + Fields(tail)
  {
    RunLengthOfRun(w, tail);
    FieldsOfRun(w + tail);
    ConcatParts(w, tail);
  }

  /** A leading space starts no field. */
  lemma FieldsAfterSpace(s: string)
    ensures Fields(" " + s) == Fields(s)
  {
    assert (" " + s)[1..] == s;
  }

  /** A line of quote-free words separated by single spaces tokenizes into
      exactly those words. */
  lemma ParseInputOfWords(words: seq<string>)
    requires forall i :: 0 <= i < |words| ==> |words[i]| > 0 && NoSpace(words[i]) && Avoids(words[i], Quote)
    ensures ParseInput(JoinWith(words, " ")) == words
  {
    JoinAvoids(words, " ", Quote);
    ParseInputQuoteFree(JoinWith(words, " "));
    FieldsOfJoin(words);
  }

  /** A quote-free word followed by a quoted span: the span's text is one
      token, whitespace and all. */
  lemma ParseInputQuotedArg(word: string, inner: string)
    requires |word| > 0 && NoSpace(word) && Avoids(word, Quote)
    requires Avoids(inner, Quote)
    ensures ParseInput(word + " '" + inner + "'") == [word, inner]
  {
    var line := word + " '" + inner + "'";
    ScanQuotedArg(word, inner);
    TokenOfQuoteFree(word);
    assert ParseInput(line)[0] == TokenOf(Bare(word));
  }

  /** The matches of a quote-free word followed by a quoted span. */
  lemma ScanQuotedArg(word: string, inner: string)
    requires |word| > 0 && NoSpace(word) && Avoids(word, Quote)
    requires Avoids(inner, Quote)
    ensures Scan(word + " '" + inner + "'") == [Bare(word), Quoted(inner)]
  {
    var u := Raw(Quoted(inner));
    QuotedArgLine(word, inner);
    ScanAfterMatch(Bare(word), u);
    ScanOfRaw(Quoted(inner), "");
    assert u + "" == u;
  }

  /** How the line of a word and a quoted span is put together. */
  lemma QuotedArgLine(word: string, inner: string)
    ensures word + " '" + inner + "'" == Raw(Bare(word)) + (" " + Raw(Quoted(inner)))
  {
  }

  /** A quote-free bare run is its own token. */
  lemma TokenOfQuoteFree(word: string)
    requires |word| > 0 && NoSpace(word) && Avoids(word, Quote)
    ensures WellFormed(Bare(word)) && TokenOf(Bare(word)) == word
  {
  }

  /** The matches joined by single spaces: a line that scans back to them. */
  function Unscan(ls: seq<Lexeme>): string {
    JoinWith(Raws(ls), " ")
  }

  /** The run at the start of `text + tail` is `text` when `text` holds no
      whitespace and `tail` is empty or starts with whitespace. */
  lemma {:induction false} RunLengthOfRun(text: string, tail: string)
    requires NoSpace(text)
    requires |tail| == 0 || IsSpace(tail[0])
    ensures RunLength(text + tail) == |text|
    decreases |text|
  {
    if |text| == 0 {
      assert text + tail == tail;
    } else {
      assert (text + tail)[0] == text[0];
      assert (text + tail)[1..] == text[1..] + tail;
      RunLengthOfRun(text[1..], tail);
    }
  }

  /** The first match of a quoted span's text is that span, whatever follows. */
  lemma NextMatchOfQuoted(inner: string, tail: string)
    requires Avoids(inner, Quote)
    ensures NextMatch([Quote] + inner + [Quote] + tail) == Some(Match(Quoted(inner), tail))
  {
    var s := [Quote] + inner + [Quote] + tail;
    assert s[1..] == inner + ([Quote] + tail);
    IndexOfAfterFree(inner, [Quote] + tail, Quote);
    assert s[1..|inner| + 1] == inner;
    assert s[|inner| + 2..] == tail;
  }

  /** The first match of a bare run's text, followed by whitespace or
      nothing, is that run. */
  lemma NextMatchOfBare(text: string, tail: string)
    requires WellFormed(Bare(text))
    requires |tail| == 0 || IsSpace(tail[0])
    requires text[0] == Quote ==> Avoids(tail, Quote)
    ensures NextMatch(text + tail) == Some(Match(Bare(text), tail))
  {
    if text[0] == Quote {
      AvoidsBehindFirst(text, tail);
    }
    RunLengthOfRun(text, tail);
    ConcatParts(text, tail);
  }

  /** Behind the first character of `text`, neither the rest of `text` nor
      `tail` holds a quote. */
  lemma AvoidsBehindFirst(text: string, tail: string)
    requires |text| > 0 && Avoids(text[1..], Quote) && Avoids(tail, Quote)
    ensures (text + tail)[0] == text[0]
    ensures Avoids((text + tail)[1..], Quote)
  {
    assert (text + tail)[1..] == text[1..] + tail;
    AvoidsConcat(text[1..], tail, Quote);
  }

  /** The first match of a lexeme's own text, followed by whitespace or
      nothing, is that lexeme. */
  lemma NextMatchOfRaw(l: Lexeme, tail: string)
    requires WellFormed(l)
    requires |tail| == 0 || IsSpace(tail[0])
    requires OpensUnterminated(l) ==> Avoids(tail, Quote)
    ensures NextMatch(Raw(l) + tail) == Some(Match(l, tail))
  {
    match l
    case Quoted(inner) => NextMatchOfQuoted(inner, tail);
    case Bare(text) => NextMatchOfBare(text, tail);
  }

  /** Scanning a lexeme's own text, followed by whitespace or nothing, gives
      that lexeme and then the matches of what follows. */
  lemma ScanOfRaw(l: Lexeme, tail: string)
    requires WellFormed(l)
    requires |tail| == 0 || IsSpace(tail[0])
    requires OpensUnterminated(l) ==> Avoids(tail, Quote)
    ensures Scan(Raw(l) + tail) == [l] + Scan(tail)
  {
    NextMatchOfRaw(l, tail);
  }

  /** Joining two or more matches puts a space after the first. */
  lemma UnscanCons(ls: seq<Lexeme>)
    requires |ls| > 1
    ensures Unscan(ls) == Raw(ls[0]) + (" " + Unscan(ls[1..]))
  {
    assert Raws(ls)[1..] == Raws(ls[1..]);
  }

  /** After an unterminated quote, the joined remaining matches hold no quote. */
  lemma UnscanAfterUnterminated(ls: seq<Lexeme>)
    requires Valid(ls) && |ls| > 0 && OpensUnterminated(ls[0])
    ensures Avoids(Unscan(ls[1..]), Quote)
  {
    var raws := Raws(ls[1..]);
    forall i | 0 <= i < |raws| ensures Avoids(raws[i], Quote) {
      assert raws[i] == Raw(ls[i + 1]);
    }
    JoinAvoids(raws, " ", Quote);
  }

  /** One step of `ScanUnscan`: the first match, then the rest. */
  lemma ScanUnscanStep(ls: seq<Lexeme>)
    requires Valid(ls) && |ls| > 1
    requires Scan(Unscan(ls[1..])) == ls[1..]
    ensures Scan(Unscan(ls)) == ls
  {
    var u := Unscan(ls[1..]);
    UnscanCons(ls);
    if OpensUnterminated(ls[0]) {
      UnscanAfterUnterminated(ls);
    }
    ScanAfterMatch(ls[0], u);
    HeadTail(ls, []);
  }

  /** A lexeme's own text, a space, then a line: the lexeme comes first and
      the line's matches follow. */
  lemma ScanAfterMatch(l: Lexeme, u: string)
    requires WellFormed(l)
    requires OpensUnterminated(l) ==> Avoids(u, Quote)
    ensures Scan(Raw(l) + (" " + u)) == [l] + Scan(u)
  {
    if OpensUnterminated(l) {
      AvoidsConcat(" ", u, Quote);
    }
    ScanOfRaw(l, " " + u);
    ScanSkipsLeadingSpace(" ", u);
  }

  /** Any valid list of matches survives being joined by spaces and scanned again. */
  lemma {:induction false} ScanUnscan(ls: seq<Lexeme>)
    requires Valid(ls)
    ensures Scan(Unscan(ls)) == ls
    decreases |ls|
  {
    if |ls| == 1 {
      ScanOfRaw(ls[0], "");
      assert Raw(ls[0]) + "" == Unscan(ls);
    } else if |ls| > 1 {
      ValidTail(ls);
      ScanUnscan(ls[1..]);
      ScanUnscanStep(ls);
    }
  }

  /** The suffix of a valid list of matches is valid. */
  lemma ValidTail(ls: seq<Lexeme>)
    requires Valid(ls) && |ls| > 0
    ensures Valid(ls[1..])
  {
    forall i, j | 0 <= i < j < |ls[1..]| && OpensUnterminated(ls[1..][i])
      ensures Avoids(Raw(ls[1..][j]), Quote)
    {
      assert ls[1..][i] == ls[i + 1] && ls[1..][j] == ls[j + 1];
    }
  }

  /** Re-tokenizing the space-joined matches of a line gives the same matches. */
  lemma ScanIdempotent(s: string)
    ensures Scan(Unscan(Scan(s))) == Scan(s)
  {
    ScanValid(s);
    ScanUnscan(Scan(s));
  }
}

=== FILE: wrappers.dfy ===
/** The optional-value type shared by the other modules. */
module Wrappers {

  /** A value that may be missing: an unset environment variable, a search that found nothing. */
  datatype Option<+T> = None | Some(value: T)
}
